=== FILE: README.md ===
# cozy-corner-finder in Dafny

This is a model of the logic inside the cozy-corner-finder front-end, a React site for finding paying-guest (PG) rooms. Everything else in the site is markup. The model covers these pieces:

- **Catalog:** the fixed catalog of six listings, lookup by id, and the five-part listing filter.
- **Reservation dialog:** the count of nights, the price lines, and the checks and outcomes of the Reserve button.
- **Wishlist:** the wishlist hook, a set of saved listing ids driven by fetch, logout and toggle.
- **Filter panel:** its edits.
- **Owner wizard:** the "list your PG" claim wizard, a five-step state machine with digit-only input sanitisers.
- **Carousels:** the two cyclic carousels, the photo gallery and the hero banner.
- **Search:** the round trip from the search bar's query parameters to the search page's filter state and results. The page seeds its filters only when it is entered, so a later search from its own bar changes the location it shows but not its filters.
- **Views:** what the listing card, the listing details page and the profile page derive from their data.

Everything is written as immutable datatypes and pure functions.

- **Store calls:** each handler that calls the hosted store takes the store's answer as a parameter (`Effects.StoreReply`). It returns what it would do: the toasts it shows, the route it navigates to, the rows it inserts. Where a flag such as `isSubmitting` or `loading` is visible during the call, the handler is split into a first half (checks and request) and a second half (the reply).
- **Time:** instants are integer milliseconds.
- **Money:** the fractional price arithmetic is done exactly on integers. `Math.round(x)` is the nearest integer with halves rounded up.

Modules, one per file:

- `Wrappers`, `Seqs`, `Text`: `Option`, sequence filtering and subsequences, and the string functions the pages use. The string functions are digit strings, `parseInt`, `String.replace` with a string pattern, `split`/`join` and ASCII upper case.
- `Listings`: the listing record (`src/types/pg.ts`).
- `Catalog`: `src/data/mockPGs.ts`.
- `Effects`: toasts, store replies and routes.
- `Checkout`: `src/components/CheckoutDialog.tsx`.
- `Wishlist`: `src/hooks/useWishlist.tsx`.
- `FilterPanel`: `src/components/FilterPanel.tsx`.
- `ClaimWizard`: `src/pages/ListYourPG.tsx`.
- `Carousel`: `src/components/ImageGallery.tsx` and `src/components/HeroBanner.tsx`.
- `Search`: `src/components/SearchBar.tsx` and `src/pages/SearchPage.tsx`.
- `ListingViews`: `src/components/PGCard.tsx`, `src/pages/PGDetailsPage.tsx` and the `/pg/:id` route of `src/App.tsx`.
- `Profile`: `src/pages/ProfilePage.tsx`.

## Model

| member | source | states |
|---|---|---|
| Listings.GenderNameInjective | src/types/pg.ts:1 | the three gender values are distinct strings, none of them "all" |
| Listings.FoodNameInjective | src/types/pg.ts:2 | the three food values are distinct strings, none of them "all" |
| Catalog.CatalogIdsDistinct | src/data/mockPGs.ts:3-153 | the catalog ids are "1" to "6", pairwise distinct |
| Catalog.MockPGs | src/data/mockPGs.ts:3-153 | the catalog holds exactly six listings |
| Catalog.CatalogListingsWellFormed | src/data/mockPGs.ts:3-153 | every catalog listing has a positive rent, a deposit of twice the rent, at least two photos, and a WhatsApp number starting with "+" |
| Catalog.CatalogRentRange | src/data/mockPGs.ts:3-153 | every catalog rent lies between 6000 and 18000 |
| Catalog.GetPGById | src/data/mockPGs.ts:155-157 | a found listing is in the catalog and has the id; nothing is found exactly when no listing has the id; the first listing with the id is the one returned |
| Catalog.GetPGByIdFindsEachListing | src/data/mockPGs.ts:155-157 | looking up the id of any catalog listing returns that listing |
| Catalog.Keep | src/data/mockPGs.ts:166-184 | the early-return chain of tests keeps a listing exactly when the conjunction of the five constraints holds: gender, food (or "both"), each non-zero rent bound, every requested amenity |
| Catalog.FilterListings | src/data/mockPGs.ts:166-184 | the result holds exactly the listings that pass all five tests, as a subsequence of the input, each with its original multiplicity |
| Catalog.FilterPGs | src/data/mockPGs.ts:159-185 | the filter over the catalog is a duplicate-free subsequence of it, holding exactly the listings that pass |
| Catalog.FilterGender | src/data/mockPGs.ts:167 | with a gender other than empty or "all", every result has that gender; an empty or "all" gender imposes nothing |
| Catalog.FilterFood | src/data/mockPGs.ts:170 | with a food other than empty or "all", every result serves it or serves both; a "both" listing is never excluded by the food test |
| Catalog.FilterRent | src/data/mockPGs.ts:173-178 | a non-zero minimum and maximum bound the rent inclusively; a zero or missing bound imposes nothing |
| Catalog.FilterAmenities | src/data/mockPGs.ts:179-182 | every result has every requested amenity; an empty list imposes nothing |
| Catalog.FilterComplete | src/data/mockPGs.ts:166-184 | a listing that meets every constraint is in the result |
| Catalog.FilterListingsKeepsAll | src/data/mockPGs.ts:166-184 | when every listing passes, the filter returns its input unchanged |
| Catalog.FilterNothingReturnsCatalog | src/data/mockPGs.ts:159-185 | an empty filter returns the whole catalog in order |
| Catalog.MaxRentZeroIsNoBound | src/data/mockPGs.ts:176 | a maximum rent of 0 is no upper bound, so the whole catalog is returned |
| Checkout.CeilDiv | src/components/CheckoutDialog.tsx:50 | the quotient rounded up: the least q with a <= q * d |
| Checkout.CalculateNights | src/components/CheckoutDialog.tsx:47-51 | 0 without both dates, otherwise the millisecond gap divided by a day and rounded up |
| Checkout.NightsPositiveIffValidRange | src/components/CheckoutDialog.tsx:47-51 | there is at least one night exactly when both dates are set and check-out is later |
| Checkout.OneDayIsOneNight | src/components/CheckoutDialog.tsx:47-51 | a gap of exactly one day is one night |
| Checkout.Round | src/components/CheckoutDialog.tsx:55-56 | the nearest integer to num/den, halves rounded up |
| Checkout.ServiceFee | src/components/CheckoutDialog.tsx:53-55 | the fee is within half a rupee of a tenth of nights * rent / 30; it is 0 for no nights and never negative |
| Checkout.TotalAmount | src/components/CheckoutDialog.tsx:53-56 | the total is within half a rupee of the stay plus the fee; it is 0 for no nights and never negative |
| Checkout.Breakdown | src/components/CheckoutDialog.tsx:238-256 | the price breakdown exists exactly when check-out is after check-in; then its night count is the computed nights, the nightly line is rent / 30 rounded, the stay line is nights * rent / 30 rounded, and the fee and total are the service fee and total amount of those nights |
| Checkout.PricingExample | src/components/CheckoutDialog.tsx:53-56 | rent 8500 over three nights gives 283 a night, 850, a fee of 85 and 935 in all |
| Checkout.BeginReserve | src/components/CheckoutDialog.tsx:58-99 | checks in order: no user gives "Login required" and a redirect to /auth; a missing date gives "Select dates"; a non-increasing range gives "Invalid dates"; only when all pass is the pending row with the total amount sent, with submitting on |
| Checkout.ErrorText | src/components/CheckoutDialog.tsx:113 | the store's message when non-empty, otherwise "Failed to make reservation"; never empty |
| Checkout.ReserveDisabled | src/components/CheckoutDialog.tsx:226 | an enabled Reserve button means both dates are chosen and no reservation is in flight; it is disabled while submitting |
| Checkout.ReserveDisabledWhileSubmitting | src/components/CheckoutDialog.tsx:87-118 | once a reservation is sent the button is disabled, and whatever the store answers it is enabled again |
| Checkout.FinishReserve | src/components/CheckoutDialog.tsx:101-118 | submitting ends either way; success closes the dialog and goes to /profile; an error keeps the dialog and shows the message in a destructive toast |
| Checkout.HandleReserve | src/components/CheckoutDialog.tsx:58-119 | exactly one insert is issued iff all checks pass; it is pending, priced at the total amount and located at the address; without an insert the form is unchanged |
| Wishlist.IsInWishlist | src/hooks/useWishlist.tsx:107-109 | a listing shows as saved exactly when its id is in the saved set; FetchSavedPGs and ToggleWishlist state how that set changes |
| Wishlist.FetchSavedPGs | src/hooks/useWishlist.tsx:24-35 | with a user and data, the saved set becomes exactly the returned ids; otherwise it is unchanged |
| Wishlist.OnUserChange | src/hooks/useWishlist.tsx:16-22 | no user empties the set; a user refetches it |
| Wishlist.PrimaryImage | src/hooks/useWishlist.tsx:83 | the first image when there is a non-empty one, otherwise none |
| Wishlist.BeginToggle | src/hooks/useWishlist.tsx:37-59 | no user gives "Login required" and /auth; otherwise loading is turned on and a delete is issued for a saved listing, or an insert of its snapshot for an unsaved one |
| Wishlist.FinishToggle | src/hooks/useWishlist.tsx:61-104 | loading ends; success flips only the listing's membership; an error keeps the set and shows the generic error toast |
| Wishlist.ToggleWishlist | src/hooks/useWishlist.tsx:37-105 | one store call per signed-in toggle; no other id changes; success flips membership; an error changes nothing |
| Wishlist.ToggleTwiceRestores | src/hooks/useWishlist.tsx:53-109 | two successful toggles of one listing restore the saved set |
| FilterPanel.Toggled | src/components/FilterPanel.tsx:53-58 | the item's membership flips, no other membership changes, a removal keeps order, an addition appends at the end, and distinctness is kept |
| FilterPanel.ToggleAbsentTwice | src/components/FilterPanel.tsx:53-58 | toggling an absent item twice restores the list exactly |
| FilterPanel.TogglePresentTwice | src/components/FilterPanel.tsx:53-58 | toggling a present item of a duplicate-free list twice restores its contents, with that item moved to the end |
| FilterPanel.RemovedOnce | src/components/FilterPanel.tsx:53-58 | toggling a present item of a duplicate-free list removes exactly one copy of it |
| FilterPanel.ToggledLength | src/components/FilterPanel.tsx:53-58 | on a duplicate-free list a toggle shortens the list by one for a present item and lengthens it by one for an absent item |
| FilterPanel.DistinctCountsOnce | src/components/FilterPanel.tsx:53-58 | in a duplicate-free list, a member occurs exactly once |
| FilterPanel.ChooseGender | src/components/FilterPanel.tsx:45-47 | choosing the selected gender resets it to "all", choosing another selects it; nothing else changes |
| FilterPanel.ChooseFood | src/components/FilterPanel.tsx:49-51 | the same toggle-to-"all" rule for food; nothing else changes |
| FilterPanel.ToggleAmenity | src/components/FilterPanel.tsx:53-58 | only the amenity's membership flips; nothing else in the filters changes |
| FilterPanel.SlideRent | src/components/FilterPanel.tsx:83 | the slider sets only the two rent bounds |
| FilterPanel.ActiveFilterCount | src/components/FilterPanel.tsx:196-199 | zero exactly when gender and food are "all" and no amenity is chosen; between the amenity count and that plus two |
| FilterPanel.ChooseGenderCount | src/components/FilterPanel.tsx:45-47 | choosing a gender option moves the badge count by one when it switches between "all" and a gender, and leaves it unchanged otherwise |
| FilterPanel.ChooseFoodCount | src/components/FilterPanel.tsx:49-51 | the same count change for the food options |
| FilterPanel.ToggleAmenityCount | src/components/FilterPanel.tsx:53-58 | on duplicate-free amenities, toggling one lowers the count by one when it was chosen and raises it by one otherwise |
| FilterPanel.RentNeverCounts | src/components/FilterPanel.tsx:196-199 | moving the rent slider never changes the count |
| FilterPanel.ClearFilters | src/components/FilterPanel.tsx:201-209 | the cleared filters count zero and span 0 to 50000 |
| FilterPanel.ShowClearAll | src/components/FilterPanel.tsx:218 | "Clear all" is offered exactly when a gender, a food or an amenity is chosen |
| FilterPanel.ClearAllHidesItself | src/components/FilterPanel.tsx:218 | after "Clear all" the button is no longer offered |
| FilterPanel.ToggleSection | src/components/FilterPanel.tsx:39-43 | the section's openness flips and no other section changes |
| ClaimWizard.Sanitize | src/pages/ListYourPG.tsx:120 | the result is all digits: the input's digits in order, cut to the cap; digit input within the cap is unchanged |
| ClaimWizard.SanitizeIdempotent | src/pages/ListYourPG.tsx:158 | sanitising twice is sanitising once |
| ClaimWizard.HandleSendOtp | src/pages/ListYourPG.tsx:33-37 | a 10-character phone moves to the code step; anything else changes nothing |
| ClaimWizard.HandleVerifyOtp | src/pages/ListYourPG.tsx:39-43 | a 6-character code moves to the search step; anything else changes nothing |
| ClaimWizard.Dispatch | src/pages/ListYourPG.tsx:33-56 | every action keeps the inputs well formed; a step change follows one of the six edges, including the back edges at lines 174 and 274; leaving login needs a full phone and leaving the code step a full code; success is final; entering claim records one of the offered results |
| ClaimWizard.Run | src/pages/ListYourPG.tsx:9-56 | any sequence of actions keeps the inputs well formed |
| ClaimWizard.StartWellFormed | src/pages/ListYourPG.tsx:12-16 | the wizard starts at login, well formed |
| ClaimWizard.TypeFittingDigits | src/pages/ListYourPG.tsx:120 | typing digits within the cap stores them unchanged |
| ClaimWizard.RunAppend | src/pages/ListYourPG.tsx:9-56 | running two sequences of actions is running the first and then the second |
| ClaimWizard.PhonePath | src/pages/ListYourPG.tsx:33-37 | typing a 10-digit phone and sending leads to the code step |
| ClaimWizard.CodePath | src/pages/ListYourPG.tsx:39-43 | typing a 6-digit code and verifying leads to the search step |
| ClaimWizard.SignInPath | src/pages/ListYourPG.tsx:33-43 | phone, send, code and verify lead from login to search |
| ClaimWizard.ClaimPath | src/pages/ListYourPG.tsx:49-56 | a query, a claim and a submission lead from search to success with that result selected |
| ClaimWizard.HappyPath | src/pages/ListYourPG.tsx:9-56 | the whole flow from the start reaches success with the claimed result selected |
| ClaimWizard.CircleLit | src/pages/ListYourPG.tsx:66-76 | a progress circle is lit iff it is the current step's circle (the code step counts as login) or the wizard is done |
| ClaimWizard.ConnectorLit | src/pages/ListYourPG.tsx:77-86 | connector i is lit iff i is below the step's rank: none at login, one at search, both at claim and success |
| ClaimWizard.SelectedResult | src/pages/ListYourPG.tsx:244-260 | the selected id names one of the two results, which is then found |
| Carousel.Next | src/components/ImageGallery.tsx:15-17 | the next index stays in range and wraps from the last slide to the first |
| Carousel.Prev | src/components/HeroBanner.tsx:21-23 | the previous index stays in range and wraps from the first slide to the last |
| Carousel.PrevUndoesNext | src/components/ImageGallery.tsx:15-21 | previous undoes next and next undoes previous |
| Carousel.SingleSlideStays | src/components/ImageGallery.tsx:15-21 | with one slide both moves stay at 0 |
| Carousel.ForwardAdd | src/components/HeroBanner.tsx:17-19 | a presses of next then b presses is a + b presses |
| Carousel.ForwardWithoutWrap | src/components/HeroBanner.tsx:17-19 | before the last slide, k presses of next add k |
| Carousel.FullCycleReturns | src/components/ImageGallery.tsx:15-17 | n presses of next return to the starting slide |
| Carousel.Counter | src/components/ImageGallery.tsx:43 | with the index in range the counter is between 1 and n, and equals n only on the last slide |
| Carousel.CounterFollowsNext | src/components/ImageGallery.tsx:15-17 | pressing next raises the counter by one, and from n back to 1 |
| Carousel.EmptyGalleryCounter | src/components/ImageGallery.tsx:43 | with no photos the counter still reads 1 (of 0) |
| Carousel.ShowControls | src/components/ImageGallery.tsx:88 | arrows and dots are shown exactly when there are at least two slides |
| Carousel.ControlsShownIffSlidesMove | src/components/HeroBanner.tsx:67 | the controls are shown exactly when next, and also previous, would change the slide |
| Carousel.Click | src/components/ImageGallery.tsx:88-124 | controls exist only for more than one slide; a dot selects its slide and the arrows move one step either way |
| Carousel.ExactlyOneDotActive | src/components/HeroBanner.tsx:89-95 | with the index in range exactly one of the n dots is highlighted, the current slide's |
| Carousel.ClickedDotLights | src/components/ImageGallery.tsx:116-122 | after clicking a rendered dot, that dot and no other is highlighted |
| Carousel.Hover | src/components/HeroBanner.tsx:35-36 | entering pauses autoplay and leaving resumes it, without moving the slide |
| Carousel.Tick | src/components/HeroBanner.tsx:25-30 | an autoplay interval advances by next only while autoplay is on |
| Carousel.HoverFreezes | src/components/HeroBanner.tsx:25-36 | while the mouse is on the banner, no number of intervals moves it |
| Carousel.PlayingTicksAdvance | src/components/HeroBanner.tsx:25-30 | while playing, k intervals are k presses of next |
| Carousel.PlayingCycleReturns | src/components/HeroBanner.tsx:25-30 | n playing intervals come back to the starting slide |
| Carousel.Offset | src/components/HeroBanner.tsx:41 | the strip shifts by one full width per preceding slide |
| Carousel.OffsetAfterTick | src/components/HeroBanner.tsx:25-41 | each autoplay interval shifts the strip one more full width, and back to no shift after the last slide |
| Carousel.OffsetBounded | src/components/HeroBanner.tsx:41 | with the index in range the shift lies between none and n - 1 widths |
| Search.Get | src/pages/SearchPage.tsx:18-25 | a key's value is the first pair carrying it, and is absent exactly when no pair carries it |
| Search.BuildParams | src/components/SearchBar.tsx:40-45 | location is emitted iff non-empty, gender iff not "all", both rent bounds always, in the order location, gender, minRent, maxRent, each key at most once |
| Search.GetBuildParams | src/components/SearchBar.tsx:42-45 | each emitted key reads back as the value set, and an omitted key reads back as absent |
| Search.DefaultSearchParams | src/components/SearchBar.tsx:28-34 | the default search emits only minRent 0 and maxRent 25000 |
| Search.HandleSearch | src/components/SearchBar.tsx:47-51 | with a callback, the callback receives the raw input and nothing navigates; otherwise the page goes to /search with the parameters |
| Search.ReadRent | src/pages/SearchPage.tsx:20-21 | an absent or empty value gives the default, a digit string gives its number, and text without a leading digit gives 0 |
| Search.SeedFilters | src/pages/SearchPage.tsx:17-23 | gender comes from the query, or "all" when absent or empty; rents default to 0 and 50000; food "all" and no amenities whatever the query says |
| Search.PageLocation | src/pages/SearchPage.tsx:25 | the query's location, or "" |
| Search.SearchRoundTrip | src/pages/SearchPage.tsx:17-25 | on entering the page, a search read back gives the same location, gender (with "" read as "all") and budget |
| Search.ToCriteria | src/pages/SearchPage.tsx:31-37 | the catalog filter receives exactly the five filter fields |
| Search.Results | src/pages/SearchPage.tsx:31-37 | on entering the page with a query, the results are a duplicate-free subsequence of the catalog holding exactly the listings the seeded filters admit |
| Search.QueryGenderRespected | src/pages/SearchPage.tsx:18 | a gender in the query other than "all" admits only listings of that gender |
| Search.QueryBudgetRespected | src/pages/SearchPage.tsx:20-21 | the budget of a search bounds the listed rents inclusively; a zero bound imposes nothing |
| Search.NoParamsListsEverything | src/pages/SearchPage.tsx:17-37 | with no parameters the page lists the whole catalog |
| Search.CompactSeed | src/pages/SearchPage.tsx:52-57 | on entering the page, the compact bar starts from the page's location, gender and rent bounds |
| Search.ResearchIsStable | src/pages/SearchPage.tsx:52-57 | searching again unedited and entering the page afresh with that query reproduces the page's location and filters |
| Search.EnterSearchPage | src/pages/SearchPage.tsx:17-25 | entering the page keeps the query and seeds the filters from it, so it lists Results of the query |
| Search.PageResults | src/pages/SearchPage.tsx:27-43 | an open page lists a duplicate-free subsequence of the catalog holding exactly the listings its current filters admit |
| Search.ChangeFilters | src/pages/SearchPage.tsx:74-76 | the filter panel replaces the filters and leaves the query alone |
| Search.SearchFromPage | src/components/SearchBar.tsx:50 | a search from the open page's own bar changes the query but not the filters, since the page stays mounted on the same route |
| Search.SearchFromPageKeepsResults | src/pages/SearchPage.tsx:17-25 | after such a search the page shows the searched location but lists exactly what it listed before |
| Search.StaleGenderAfterSearchFromPage | src/pages/SearchPage.tsx:17-18 | entered for "boys", then searched for "girls" from its bar, the page's query asks for girls while its filters stay on boys |
| Search.ResultLabel | src/pages/SearchPage.tsx:89 | the header is the count's digits followed by " PG found" for one result and " PGs found" otherwise |
| Search.ResultLabelCount | src/pages/SearchPage.tsx:89 | the header begins with the count, which reads back as the number of results |
| ListingViews.FoodTag | src/components/PGCard.tsx:74-78 | no tag iff the listing serves both; "Veg" iff veg; "Non-veg" iff non-veg |
| ListingViews.ChipText | src/components/PGCard.tsx:83 | the first underscore, and only it, becomes a space: the text before it has none, and the text after it is kept as it is |
| ListingViews.ChipTextAt | src/components/PGCard.tsx:83 | a tag of an underscore-free head, an underscore and any tail shows as head, space, tail |
| ListingViews.Chips | src/components/PGCard.tsx:80-85 | at most the first three amenities, in order, each relabelled |
| ListingViews.Overflow | src/components/PGCard.tsx:86-90 | "+k" is shown iff there are more than three amenities, and k is positive |
| ListingViews.ChipsAndOverflowCoverAll | src/components/PGCard.tsx:80-90 | chips plus the overflow count equal the number of amenities |
| ListingViews.GenderBadge | src/components/PGCard.tsx:47 | "Co-living" for co-living, otherwise the raw gender |
| ListingViews.GenderBadgeInjective | src/pages/PGDetailsPage.tsx:85 | different genders never share a badge |
| ListingViews.CardLink | src/components/PGCard.tsx:19 | the link is "/pg/" followed by the id |
| ListingViews.RouteId | src/App.tsx:28 | a path is a details route exactly when "/pg/" is followed by one non-empty segment without "/", which is then the id |
| ListingViews.CardLinkRoundTrip | src/components/PGCard.tsx:19 | the route parameter of a card's link is its id, for any non-empty id without "/" |
| ListingViews.NestedPathIsNoRoute | src/App.tsx:28 | in the single-segment route of this model, a path with a further "/" after the id matches no details route |
| ListingViews.Details | src/pages/PGDetailsPage.tsx:21-39 | the not-found page exactly when no catalog listing has the id, with a missing id read as ""; otherwise that listing |
| ListingViews.CardOpensItsListing | src/pages/PGDetailsPage.tsx:21-22 | following a card's link shows that listing |
| ListingViews.UnknownIdNotFound | src/pages/PGDetailsPage.tsx:24-39 | a missing or unknown id shows the not-found page |
| ListingViews.AmenityLabel | src/pages/PGDetailsPage.tsx:128-141 | a known tag shows its table label, an unknown tag shows raw |
| ListingViews.KnownAmenityIsRelabelled | src/pages/PGDetailsPage.tsx:10-18 | a known tag never shows raw |
| ListingViews.FoodDescription | src/pages/PGDetailsPage.tsx:151-155 | each food option has its line |
| ListingViews.FoodDescriptionInjective | src/pages/PGDetailsPage.tsx:151-155 | the three lines differ, so the line tells the option |
| ListingViews.SimilarListings | src/pages/PGDetailsPage.tsx:228-229 | every other listing of the catalog in catalog order, never the current one |
| ListingViews.SimilarDropsExactlyOne | src/pages/PGDetailsPage.tsx:228-229 | with distinct ids, exactly one listing is dropped |
| ListingViews.CatalogSimilarIsFive | src/pages/PGDetailsPage.tsx:228-229 | on the catalog, every details page lists five others |
| ListingViews.WhatsAppNumber | src/pages/PGDetailsPage.tsx:48 | the first plus sign, and only it, is removed: the text before it has none and the text after it is kept; without a plus the number is unchanged |
| ListingViews.WhatsAppNumberDropsLeadingPlus | src/pages/PGDetailsPage.tsx:48 | a number written "+" then digits is sent as the digits |
| ListingViews.CatalogWhatsAppNumbers | src/pages/PGDetailsPage.tsx:48 | every catalog listing's chat link carries its number without the leading "+" |
| ListingViews.WhatsAppMessage | src/pages/PGDetailsPage.tsx:46 | the name sits between the fixed greeting and question |
| ListingViews.WhatsAppMessageNamesListing | src/pages/PGDetailsPage.tsx:46 | equal messages mean equal names |
| Profile.Firsts | src/pages/ProfilePage.tsx:167-170 | at most one character per word, empty exactly when every word is empty |
| Profile.FirstsOfWord | src/pages/ProfilePage.tsx:169 | one word contributes its first character, or nothing when it is empty |
| Profile.FirstsAppend | src/pages/ProfilePage.tsx:168-170 | the letters of two runs of words are the letters of the first followed by those of the second |
| Profile.Initials | src/pages/ProfilePage.tsx:167-171 | never empty and never lower case; a name with a non-empty word gives the upper-cased first letters of its space-separated words, else the e-mail's first letter upper-cased, else "U" |
| Profile.InitialsOfWords | src/pages/ProfilePage.tsx:167-170 | a name of space-separated words gives their upper-cased first letters |
| Profile.BlankNameFallsBack | src/pages/ProfilePage.tsx:171 | a blank or missing name falls back to the e-mail |
| Profile.StatusColor | src/pages/ProfilePage.tsx:146-157 | confirmed, pending and cancelled each get their own classes, and every other value, null included, gets the default |
| Profile.StatusLabel | src/pages/ProfilePage.tsx:352 | the status, or "pending" when null or empty; never empty |
| Text.NonEmptyOr | src/components/CheckoutDialog.tsx:113 | a present non-empty text, otherwise the fallback; never empty when the fallback is not |
| Text.ReplaceFirst | src/components/PGCard.tsx:83 | without the pattern the text is unchanged; otherwise the first occurrence, and only it, is replaced: the text before it is kept and has no occurrence, the text after it is kept |
| Text.ReplaceFirstAt | src/pages/PGDetailsPage.tsx:48 | a pattern-free head, the pattern and a tail become head, replacement, tail |
| Profile.MissingStatusShowsPendingUncoloured | src/pages/ProfilePage.tsx:351-352 | a null status reads "pending" but gets the default colours |
| Profile.RemoveSavedPG | src/pages/ProfilePage.tsx:131-144 | on success, the rows with that id are dropped and the others kept in order, with a "Removed" toast; on an error nothing changes |
| Profile.RemoveTwiceIsRemoveOnce | src/pages/ProfilePage.tsx:131-144 | removing the same row twice is removing it once |
| Profile.AuthRedirect | src/pages/ProfilePage.tsx:65-69 | the page goes to /auth iff authentication has settled with no user |

## Left out

- The hosted store, authentication, toasts and routing are not performed. Store answers are parameters, and toasts and routes are returned as values.
- Concurrency is not modelled: the `setTimeout` delay before the search page filters (src/pages/SearchPage.tsx:30-42), and answers from the store arriving out of order. Each handler's two halves are modelled, and so is one toggle completing alone.
- The hero banner's `setInterval` (src/components/HeroBanner.tsx:28) is not modelled as a timer. Each interval is one `Carousel.Tick`.
- Floating point is not modelled. `rent / 30` and `* 0.1` are exact rational arithmetic, and `Math.round` is nearest with halves up. Binary rounding at exact half boundaries may differ.
- `Date` objects, date formatting for the inserted row, and the calendar's disabled-day predicates are not modelled. The inserted row carries the instants as integers.
- `toLocaleString` is not modelled.
- `URLSearchParams` text encoding and `encodeURIComponent` are not modelled. A query is a list of key/value pairs.
- Search.ReadRent: `parseInt` is modelled for leading decimal digits only. Leading whitespace, signs and other radixes are not modelled.
- Search.SearchRoundTrip: the round trip holds for entering the page with the query. A search from the page's own bar keeps the page mounted, and its filters are not reseeded; Search.SearchFromPage models that case.
- Search.ReadRent: a rent value with no leading digit is NaN in the page but is stored as 0 here. The catalog filter treats NaN and 0 alike, since both are falsy. The compact search bar does not: the page passes NaN as its initial budget (src/pages/SearchPage.tsx:52-57), and `budget[0].toString()` (src/components/SearchBar.tsx:44) then writes "NaN" into the next URL. Here Search.CompactSeed and Search.BuildParams write "0". Reading either back imposes no rent bound. The filter panel's rent label (src/components/FilterPanel.tsx:78) likewise shows "₹NaN" where the model holds 0.
- `toUpperCase` is modelled for ASCII letters only.
- Profile.Initials: `n[0]` (src/pages/ProfilePage.tsx:169) takes one UTF-16 code unit, whereas a Dafny `char` is a whole Unicode scalar value. For a name starting with a character outside the Basic Multilingual Plane, the page takes half of a surrogate pair and the model takes the whole character.
- `console.error` logging (src/hooks/useWishlist.tsx:96, src/pages/ProfilePage.tsx:116) is not modelled. It has no effect on the page.
- ListingViews.NestedPathIsNoRoute: the router library ignores trailing slashes, so "/pg/1/" (rest empty) or "/pg/1//" (rest only slashes) still opens listing "1". The lemma holds for the model's route, which has no trailing-slash tolerance, and for the program only when the text after the id's "/" is not empty and does not start with "/".
- ListingViews.RouteId: the router library's trailing-slash tolerance, case-insensitive matching and percent-decoding of the parameter are not modelled. The route is one literal segment after "/pg/".
- Profile.Initials: requires the e-mail, when present, to be non-empty. The page throws on an empty e-mail with no usable name.
- FilterPanel.TogglePresentTwice: restores the list exactly only when the amenity was absent. When it was present, the second toggle appends it at the end, so only the contents are restored.
- Carousel.Next: requires at least one slide and an index in range. With no slides the page computes NaN.
- The profile page's data fetching and sign-out are not modelled. Only `removeSavedPG` reaches the store, and it is modelled.
- The geographic fields and the precomputed distance of a listing are not modelled. They are static data with no computation.
- Icons, styling and the guests selector of the reservation dialog are not modelled. They are markup.
- The route table of src/App.tsx is modelled only for the `/pg/:id` route (`ListingViews.RouteId`). The following files hold no logic beyond routing or markup, and are not part of this model:
  - src/components/Header.tsx
  - src/pages/Dashboard.tsx
  - src/components/RoomSelector.tsx
  - src/components/ReserveCard.tsx
  - src/pages/Index.tsx
  - src/components/PGCardSkeleton.tsx
- The search button of the owner wizard (`handleSearch`, src/pages/ListYourPG.tsx:45-47) does nothing and is modelled as an action with no effect.

=== FILE: carousel.dfy ===
/** The two cyclic carousels: the photo gallery on a listing and the hero banner on the
    home page. Both step an index around `n` slides with `(i + 1) % n` and
    `(i - 1 + n) % n`; with at least one slide and an index in range, the JavaScript
    remainder agrees with Dafny's because both operands are non-negative. */
module Carousel {

  /** An index that points at one of `n` slides. */
  predicate InRange(i: int, n: int) {
    0 <= i < n
  }

  /** `goToNext`: the following slide, wrapping from the last to the first. */
  function Next(i: int, n: int): (r: int)
    requires InRange(i, n)
    ensures InRange(r, n)
    ensures r == if i == n - 1 then 0 else i + 1
  {
    (i + 1) % n
  }

  /** `goToPrev`: the preceding slide, wrapping from the first to the last. */
  function Prev(i: int, n: int): (r: int)
    requires InRange(i, n)
    ensures InRange(r, n)
    ensures r == if i == 0 then n - 1 else i - 1
  {
    (i - 1 + n) % n
  }

  /** Going back undoes going forward, and going forward undoes going back. */
  lemma PrevUndoesNext(i: int, n: int)
    requires InRange(i, n)
    ensures Prev(Next(i, n), n) == i
    ensures Next(Prev(i, n), n) == i
  {
  }

  /** With a single slide, both moves stay on it. */
  lemma SingleSlideStays(i: int)
    requires InRange(i, 1)
    ensures Next(i, 1) == 0 && Prev(i, 1) == 0
  {
  }

  /** `k` presses of next from slide `i`. */
  function Forward(i: int, n: int, k: nat): (r: int)
    requires InRange(i, n)
    ensures InRange(r, n)
    decreases k
  {
    if k == 0 then i else Forward(Next(i, n), n, k - 1)
  }

  /** Pressing next `a` times and then `b` times is pressing it `a + b` times. */
  lemma {:induction false} ForwardAdd(i: int, n: int, a: nat, b: nat)
    requires InRange(i, n)
    ensures Forward(i, n, a + b) == Forward(Forward(i, n, a), n, b)
    decreases a
  {
    if a > 0 {
      ForwardAdd(Next(i, n), n, a - 1, b);
    }
  }

  /** Before the last slide is passed, `k` presses of next simply add `k`. */
  lemma {:induction false} ForwardWithoutWrap(i: int, n: int, k: nat)
    requires InRange(i, n) && i + k < n
    ensures Forward(i, n, k) == i + k
    decreases k
  {
    if k > 0 {
      ForwardWithoutWrap(i + 1, n, k - 1);
    }
  }

  /** `n` presses of next go all the way round to the starting slide. */
  lemma FullCycleReturns(i: int, n: int)
    requires InRange(i, n)
    ensures Forward(i, n, n) == i
  {
    var toLast: nat := n - 1 - i;
    var toFirst: nat := toLast + 1;
    ForwardWithoutWrap(i, n, toLast);
    assert Forward(n - 1, n, 1) == 0;
    ForwardAdd(i, n, toLast, 1);
    assert Forward(i, n, toFirst) == 0;
    assert toFirst + i == n;
    ForwardAdd(i, n, toFirst, i);
    ForwardWithoutWrap(0, n, i);
  }

  /** The counter under the photo, `currentIndex + 1` of `n`: always between 1 and `n`. */
  function Counter(i: int, n: int): (c: int)
    ensures InRange(i, n) ==> 1 <= c <= n
    ensures InRange(i, n) ==> (c == n <==> i == n - 1)
  {
    i + 1
  }

  /** Pressing next moves the counter up by one, and from the last slide back to 1. */
  lemma CounterFollowsNext(i: int, n: int)
    requires InRange(i, n)
    ensures Counter(Next(i, n), n) == if i == n - 1 then 1 else Counter(i, n) + 1
  {
  }

  /** With no slides at all the page still renders the counter, as "1 / 0". */
  lemma EmptyGalleryCounter()
    ensures Counter(0, 0) == 1
  {
  }

  /** Arrows and dots are rendered only when there is more than one slide. */
  function ShowControls(n: int): (shown: bool)
    ensures shown <==> n >= 2
  {
    n > 1
  }

  /** The controls are on screen exactly when stepping forward would change the slide. */
  lemma ControlsShownIffSlidesMove(i: int, n: int)
    requires InRange(i, n)
    ensures ShowControls(n) <==> Next(i, n) != i
    ensures ShowControls(n) <==> Prev(i, n) != i
  {
  }

  /** What the visitor can click: the arrows, or the `k`-th dot. */
  datatype Control = GoNext | GoPrev | GoTo(k: int)

  /** Whether the control is on screen: dots exist for each slide, and only when the
      controls are shown at all. */
  predicate Rendered(n: int, c: Control) {
    ShowControls(n) && (c.GoTo? ==> InRange(c.k, n))
  }

  /** A click on a carousel control; a control that is not rendered cannot be clicked. */
  function Click(i: int, n: int, c: Control): (r: int)
    requires InRange(i, n)
    ensures InRange(r, n)
    ensures !ShowControls(n) ==> r == i
    ensures Rendered(n, c) && c.GoTo? ==> r == c.k
    ensures Rendered(n, c) && c.GoNext? ==> Prev(r, n) == i
    ensures Rendered(n, c) && c.GoPrev? ==> Next(r, n) == i
  {
    if !Rendered(n, c) then i
    else match c
      case GoNext => Next(i, n)
      case GoPrev => Prev(i, n)
      case GoTo(k) => k
  }

  /** The dot under slide `j` is highlighted exactly when `j` is the current slide. */
  function DotActive(i: int, j: int): (active: bool)
    ensures active <==> i == j
  {
    j == i
  }

  /** With the index in range, exactly one of the `n` dots is highlighted: the current one. */
  lemma ExactlyOneDotActive(i: int, n: int)
    requires InRange(i, n)
    ensures (set j | 0 <= j < n && DotActive(i, j)) == {i}
    ensures |set j | 0 <= j < n && DotActive(i, j)| == 1
  {
    var active := set j | 0 <= j < n && DotActive(i, j);
    assert i in active;
    assert active == {i};
  }

  /** After clicking the `k`-th dot, that dot and no other is highlighted. */
  lemma ClickedDotLights(i: int, n: int, k: int, j: int)
    requires InRange(i, n) && Rendered(n, GoTo(k))
    ensures DotActive(Click(i, n, GoTo(k)), j) <==> j == k
  {
  }

  /** The hero banner: its slide index and whether autoplay is on. */
  datatype Banner = Banner(index: int, autoPlaying: bool)

  /** The banner starts at the first slide with autoplay on. */
  const InitialBanner := Banner(0, true)

  /** The mouse entering the banner pauses autoplay; leaving resumes it. */
  function Hover(b: Banner, inside: bool): (r: Banner)
    ensures r.index == b.index
    ensures r.autoPlaying <==> !inside
  {
    b.(autoPlaying := !inside)
  }

  /** One autoplay interval elapsing: the banner advances only while autoplay is on. */
  function Tick(b: Banner, n: int): (r: Banner)
    requires InRange(b.index, n)
    ensures InRange(r.index, n)
    ensures r.autoPlaying == b.autoPlaying
    ensures r.index != b.index ==> b.autoPlaying && Prev(r.index, n) == b.index
    ensures !b.autoPlaying ==> r == b
    ensures b.autoPlaying ==> r.index == Next(b.index, n)
  {
    if b.autoPlaying then b.(index := Next(b.index, n)) else b
  }

  /** `k` autoplay intervals. */
  function Ticks(b: Banner, n: int, k: nat): (r: Banner)
    requires InRange(b.index, n)
    ensures InRange(r.index, n)
    decreases k
  {
    if k == 0 then b else Ticks(Tick(b, n), n, k - 1)
  }

  /** While the mouse rests on the banner, no number of intervals moves it. */
  lemma {:induction false} HoverFreezes(b: Banner, n: int, k: nat)
    requires InRange(b.index, n)
    ensures Ticks(Hover(b, true), n, k) == Hover(b, true)
    decreases k
  {
    if k > 0 {
      HoverFreezes(b, n, k - 1);
    }
  }

  /** While autoplay runs, `k` intervals advance the banner exactly as `k` presses of next. */
  lemma {:induction false} PlayingTicksAdvance(b: Banner, n: int, k: nat)
    requires InRange(b.index, n) && b.autoPlaying
    ensures Ticks(b, n, k) == b.(index := Forward(b.index, n, k))
    decreases k
  {
    if k > 0 {
      PlayingTicksAdvance(Tick(b, n), n, k - 1);
    }
  }

  /** Autoplay with the mouse away cycles through every slide and back in `n` intervals. */
  lemma PlayingCycleReturns(b: Banner, n: int)
    requires InRange(b.index, n) && b.autoPlaying
    ensures Ticks(b, n, n) == b
  {
    PlayingTicksAdvance(b, n, n);
    FullCycleReturns(b.index, n);
  }

  /** The slide strip is shifted left by one full width per slide before the current one. */
  function Offset(b: Banner): (percent: int)
    ensures b.index >= 0 ==> percent >= 0
    ensures percent % 100 == 0 && percent / 100 == b.index
  {
    b.index * 100
  }

  /** An autoplay interval shifts the strip one more width, or back to the start after the
      last slide. */
  lemma OffsetAfterTick(b: Banner, n: int)
    requires InRange(b.index, n) && b.autoPlaying
    ensures Offset(Tick(b, n)) == if b.index == n - 1 then 0 else Offset(b) + 100
  {
  }

  /** The strip never shifts past the last slide. */
  lemma OffsetBounded(b: Banner, n: int)
    requires InRange(b.index, n)
    ensures 0 <= Offset(b) <= 100 * (n - 1)
  {
  }
}

=== FILE: catalog.dfy ===
/** The static listing catalog: lookup by id and the five-part search filter. */
module Catalog {
  import opened Wrappers
  import opened Seqs
  import opened Listings

  const Img := "https://images.unsplash.com/photo-"
  const ImgSize := "?w=600&h=400&fit=crop"

  const SunshineBoys := Listing("1", "Sunshine Boys PG", "Koramangala, Bangalore", 4.5, 128, 8500, 17000, Boys, Veg,
    [Img + "1522708323590-d24dbb6b0267" + ImgSize, Img + "1502672260266-1c1ef2d93688" + ImgSize,
     Img + "1560448204-e02f11c3d0e2" + ImgSize],
    ["wifi", "ac", "laundry", "power_backup"], true, "+919876543210", "+919876543210",
    ["No smoking", "Entry before 10 PM", "No loud music after 11 PM"],
    "Comfortable and well-maintained PG with all modern amenities. Perfect for working professionals and students.")

  const GreenValleyGirls := Listing("2", "Green Valley Girls Hostel", "HSR Layout, Bangalore", 4.8, 256, 12000, 24000, Girls, BothFood,
    [Img + "1493809842364-78817add7ffb" + ImgSize, Img + "1536376072261-38c75010e6c9" + ImgSize,
     Img + "1505693416388-ac5ce068fe85" + ImgSize],
    ["wifi", "ac", "laundry", "parking", "power_backup"], true, "+919876543211", "+919876543211",
    ["No male visitors after 8 PM", "Entry before 9:30 PM", "Maintain cleanliness"],
    "Premium girls hostel with 24/7 security, homely food, and spacious rooms. Ideal for working women.")

  const UrbanCoLiving := Listing("3", "Urban Co-Living Space", "Indiranagar, Bangalore", 4.3, 89, 15000, 30000, Coliving, Veg,
    [Img + "1600596542815-ffad4c1539a9" + ImgSize, Img + "1600585154340-be6161a56a0c" + ImgSize,
     Img + "1600607687939-ce8a6c25118c" + ImgSize],
    ["wifi", "ac", "laundry", "parking", "power_backup", "gym"], true, "+919876543212", "+919876543212",
    ["No smoking inside", "Respect quiet hours", "Clean common areas after use"],
    "Modern co-living space with community events, coworking area, and premium amenities.")

  const BudgetBoys := Listing("4", "Budget Boys Stay", "BTM Layout, Bangalore", 3.9, 45, 6000, 12000, Boys, NonVeg,
    [Img + "1512918728675-ed5a9ecdebfd" + ImgSize, Img + "1523192193543-6e7296d960e4" + ImgSize],
    ["wifi", "power_backup"], false, "+919876543213", "+919876543213",
    ["No alcohol", "Maintain silence after 11 PM"],
    "Affordable accommodation for students and freshers. Basic amenities at a budget price.")

  const LakshmiLadies := Listing("5", "Lakshmi Ladies PG", "Marathahalli, Bangalore", 4.6, 178, 9500, 19000, Girls, Veg,
    [Img + "1595526114035-0d45ed16cfbf" + ImgSize, Img + "1598928506311-c55ez89a2cc8" + ImgSize,
     Img + "1584622650111-993a426fbf0a" + ImgSize],
    ["wifi", "laundry", "power_backup"], true, "+919876543214", "+919876543214",
    ["Strict 9 PM curfew", "No overnight guests", "Weekly room inspection"],
    "Safe and secure ladies PG with homely atmosphere and delicious vegetarian food.")

  const EliteCoLiving := Listing("6", "Elite Co-Living Hub", "Whitefield, Bangalore", 4.7, 312, 18000, 36000, Coliving, BothFood,
    [Img + "1600210492486-724fe5c67fb0" + ImgSize, Img + "1600573472550-8090b5e0745e" + ImgSize,
     Img + "1600566753190-17f0baa2a6c3" + ImgSize],
    ["wifi", "ac", "laundry", "parking", "power_backup", "gym", "pool"], true, "+919876543215", "+919876543215",
    ["Noise curfew after 10 PM", "Guests allowed with prior notice", "No pets"],
    "Luxury co-living with swimming pool, gym, and community lounge. All-inclusive rent.")

  /** The six listings the front-end ships with, in catalog order. */
  function MockPGs(): (catalog: seq<Listing>)
    ensures |catalog| == 6
  {
    [SunshineBoys, GreenValleyGirls, UrbanCoLiving, BudgetBoys, LakshmiLadies, EliteCoLiving]
  }

  /** Every catalog listing has a positive rent, a deposit of two months' rent, at least
      two photos, and an international WhatsApp number starting with `+`. */
  lemma CatalogListingsWellFormed(i: nat)
    requires i < |MockPGs()|
    ensures MockPGs()[i].rent > 0 && MockPGs()[i].deposit == 2 * MockPGs()[i].rent
    ensures |MockPGs()[i].images| >= 2
    ensures |MockPGs()[i].ownerWhatsApp| > 0 && MockPGs()[i].ownerWhatsApp[0] == '+'
  {
  }

  /** The ids of a sequence of listings, in order. */
  function Ids(s: seq<Listing>): seq<string> {
    Map(s, (p: Listing) => p.id)
  }

  /** No two catalog listings share an id. */
  lemma CatalogIdsDistinct()
    ensures Distinct(Ids(MockPGs()))
    ensures Ids(MockPGs()) == ["1", "2", "3", "4", "5", "6"]
  {
    assert Ids(MockPGs()) == ["1", "2", "3", "4", "5", "6"];
  }

  /** `getPGById`: the first catalog listing with that id, or nothing. */
  function GetPGById(id: string): (r: Option<Listing>)
    ensures r.Some? ==> r.value in MockPGs() && r.value.id == id
    ensures r.None? <==> forall p :: p in MockPGs() ==> p.id != id
    ensures forall i :: 0 <= i < |MockPGs()| && MockPGs()[i].id == id ==>
              r.Some? && exists k :: 0 <= k <= i && MockPGs()[k] == r.value
  {
    var catalog := MockPGs();
    match FirstIndex(catalog, (p: Listing) => p.id == id)
    case None => None
    case Some(k) => Some(catalog[k])
  }

  /** Every catalog listing is found by its own id. */
  lemma {:induction false} GetPGByIdFindsEachListing(i: nat)
    requires i < |MockPGs()|
    ensures GetPGById(MockPGs()[i].id) == Some(MockPGs()[i])
  {
    CatalogIdsDistinct();
    var catalog := MockPGs();
    var r := GetPGById(catalog[i].id);
    var k :| 0 <= k <= i && catalog[k] == r.value;
    assert Ids(catalog)[k] == catalog[k].id && Ids(catalog)[i] == catalog[i].id;
  }

  /** The filter argument of `filterPGs`: every field may be omitted. */
  datatype Criteria = Criteria(
    gender: Option<string>,
    food: Option<string>,
    minRent: Option<int>,
    maxRent: Option<int>,
    amenities: Option<seq<string>>
  )

  const NoCriteria := Criteria(None, None, None, None, None)

  /** JavaScript truthiness of an optional string: present and non-empty. */
  predicate TruthyText(s: Option<string>) {
    s.Some? && s.value != ""
  }

  /** JavaScript truthiness of an optional number: present and non-zero. */
  predicate TruthyNumber(n: Option<int>) {
    n.Some? && n.value != 0
  }

  /** The filter callback, test by test: each failing test rejects the listing. */
  function Keep(pg: Listing, f: Criteria): (kept: bool)
    ensures kept <==>
      (!TruthyText(f.gender) || f.gender.value == "all" || GenderName(pg.gender) == f.gender.value) &&
      (!TruthyText(f.food) || f.food.value == "all" || FoodName(pg.food) == f.food.value || pg.food == BothFood) &&
      (!TruthyNumber(f.minRent) || f.minRent.value <= pg.rent) &&
      (!TruthyNumber(f.maxRent) || pg.rent <= f.maxRent.value) &&
      (f.amenities.None? || forall a :: a in f.amenities.value ==> a in pg.amenities)
  {
    if TruthyText(f.gender) && f.gender.value != "all" && GenderName(pg.gender) != f.gender.value then false
    else if TruthyText(f.food) && f.food.value != "all" && FoodName(pg.food) != f.food.value && pg.food != BothFood then false
    else if TruthyNumber(f.minRent) && pg.rent < f.minRent.value then false
    else if TruthyNumber(f.maxRent) && pg.rent > f.maxRent.value then false
    else if f.amenities.Some? && |f.amenities.value| > 0 && !(forall a :: a in f.amenities.value ==> a in pg.amenities) then false
    else true
  }

  /** The catalog listings passing every test of `Keep`, as `mockPGs.filter`. */
  function FilterListings(catalog: seq<Listing>, f: Criteria): (r: seq<Listing>)
    ensures forall p :: p in r <==> p in catalog && Keep(p, f)
    ensures IsSubsequence(r, catalog)
    ensures forall p :: multiset(r)[p] == if Keep(p, f) then multiset(catalog)[p] else 0
  {
    Filter(catalog, (p: Listing) => Keep(p, f))
  }

  /** Filtering keeps every listing when every listing passes. */
  lemma FilterListingsKeepsAll(catalog: seq<Listing>, f: Criteria)
    requires forall p :: p in catalog ==> Keep(p, f)
    ensures FilterListings(catalog, f) == catalog
  {
    FilterKeepsAll(catalog, (p: Listing) => Keep(p, f));
  }

  /** `filterPGs`: the catalog filter, without duplicates and in catalog order. */
  function FilterPGs(f: Criteria): (r: seq<Listing>)
    ensures IsSubsequence(r, MockPGs())
    ensures Distinct(r)
    ensures forall p :: p in r <==> p in MockPGs() && Keep(p, f)
  {
    CatalogIdsDistinct();
    MapDistinct(MockPGs());
    FilterPreservesDistinct(MockPGs(), (p: Listing) => Keep(p, f));
    FilterListings(MockPGs(), f)
  }

  /** Listings with distinct ids are distinct. */
  lemma MapDistinct(s: seq<Listing>)
    requires Distinct(Ids(s))
    ensures Distinct(s)
  {
    forall i, j | 0 <= i < j < |s| ensures s[i] != s[j] {
      assert Ids(s)[i] != Ids(s)[j];
    }
  }

  /** Gender test: a given gender other than "all" admits exactly that gender, and an
      omitted, empty or "all" gender imposes nothing. */
  lemma FilterGender(catalog: seq<Listing>, f: Criteria, p: Listing)
    ensures p in FilterListings(catalog, f) && TruthyText(f.gender) && f.gender.value != "all" ==>
              GenderName(p.gender) == f.gender.value
    ensures !TruthyText(f.gender) || f.gender.value == "all" ==> Keep(p, f) == Keep(p, f.(gender := None))
  {
  }

  /** Food test: a given food other than "all" admits that food and "both"; a "both"
      listing is never rejected by the food test. */
  lemma FilterFood(catalog: seq<Listing>, f: Criteria, p: Listing)
    ensures p in FilterListings(catalog, f) && TruthyText(f.food) && f.food.value != "all" ==>
              FoodName(p.food) == f.food.value || p.food == BothFood
    ensures p.food == BothFood ==> Keep(p, f) == Keep(p, f.(food := None))
  {
  }

  /** Rent bounds are inclusive, and a zero or omitted bound imposes nothing. */
  lemma FilterRent(catalog: seq<Listing>, f: Criteria, p: Listing)
    ensures p in FilterListings(catalog, f) && TruthyNumber(f.minRent) ==> f.minRent.value <= p.rent
    ensures p in FilterListings(catalog, f) && TruthyNumber(f.maxRent) ==> p.rent <= f.maxRent.value
    ensures !TruthyNumber(f.minRent) ==> Keep(p, f) == Keep(p, f.(minRent := None))
    ensures !TruthyNumber(f.maxRent) ==> Keep(p, f) == Keep(p, f.(maxRent := None))
  {
  }

  /** Amenities are conjunctive: every requested amenity must be present; an empty list
      imposes nothing. */
  lemma FilterAmenities(catalog: seq<Listing>, f: Criteria, p: Listing)
    ensures p in FilterListings(catalog, f) && f.amenities.Some? ==>
              forall a :: a in f.amenities.value ==> a in p.amenities
    ensures f.amenities.Some? && |f.amenities.value| == 0 ==> Keep(p, f) == Keep(p, f.(amenities := None))
  {
  }

  /** Completeness: every listing that meets all five constraints is returned. */
  lemma FilterComplete(catalog: seq<Listing>, f: Criteria, p: Listing)
    requires p in catalog
    requires !TruthyText(f.gender) || f.gender.value == "all" || GenderName(p.gender) == f.gender.value
    requires !TruthyText(f.food) || f.food.value == "all" || FoodName(p.food) == f.food.value || p.food == BothFood
    requires !TruthyNumber(f.minRent) || f.minRent.value <= p.rent
    requires !TruthyNumber(f.maxRent) || p.rent <= f.maxRent.value
    requires f.amenities.None? || forall a :: a in f.amenities.value ==> a in p.amenities
    ensures p in FilterListings(catalog, f)
  {
  }

  /** With no constraint at all the whole catalog comes back, in order. */
  lemma FilterNothingReturnsCatalog()
    ensures FilterPGs(NoCriteria) == MockPGs()
  {
    forall p | p in MockPGs() ensures Keep(p, NoCriteria) {
    }
    FilterListingsKeepsAll(MockPGs(), NoCriteria);
  }

  /** A zero upper bound does not mean "free listings only": it removes no listing. */
  lemma MaxRentZeroIsNoBound()
    ensures FilterPGs(NoCriteria.(maxRent := Some(0))) == MockPGs()
  {
    var f := NoCriteria.(maxRent := Some(0));
    forall p | p in MockPGs() ensures Keep(p, f) {
    }
    FilterListingsKeepsAll(MockPGs(), f);
  }

  /** Every catalog rent lies between 6000 and 18000 rupees. */
  lemma CatalogRentRange()
    ensures forall p :: p in MockPGs() ==> 6000 <= p.rent <= 18000
  {
    var c := MockPGs();
    assert forall i :: 0 <= i < |c| ==> 6000 <= c[i].rent <= 18000;
  }
}

=== FILE: checkout.dfy ===
/** The reservation dialog: night count, price breakdown, and the validate-then-insert
    reservation handler. Instants are whole milliseconds since the epoch. */
module Checkout {
  import opened Wrappers
  import opened Listings
  import opened Effects
  import opened Text

  /** 1000 * 60 * 60 * 24. */
  const MsPerDay: int := 86400000

  /** `Math.ceil(a / d)` for a positive divisor. */
  function CeilDiv(a: int, d: int): (q: int)
    requires d > 0
    ensures (q - 1) * d < a <= q * d
  {
    -((-a) / d)
  }

  /** `calculateNights`: 0 unless both dates are chosen, otherwise the millisecond gap
      rounded up to whole days (zero or negative for a non-increasing range). */
  function CalculateNights(checkIn: Option<int>, checkOut: Option<int>): (n: int)
    ensures checkIn.None? || checkOut.None? ==> n == 0
    ensures checkIn.Some? && checkOut.Some? ==>
              (n - 1) * MsPerDay < checkOut.value - checkIn.value <= n * MsPerDay
  {
    if checkIn.None? || checkOut.None? then 0
    else CeilDiv(checkOut.value - checkIn.value, MsPerDay)
  }

  /** There is at least one night exactly when both dates are chosen and check-out is later. */
  lemma NightsPositiveIffValidRange(checkIn: Option<int>, checkOut: Option<int>)
    ensures CalculateNights(checkIn, checkOut) > 0 <==>
              checkIn.Some? && checkOut.Some? && checkIn.value < checkOut.value
  {
  }

  /** A check-out exactly one day after check-in is one night. */
  lemma OneDayIsOneNight(checkIn: int)
    ensures CalculateNights(Some(checkIn), Some(checkIn + MsPerDay)) == 1
  {
  }

  /** `Math.round(num / den)`: the nearest integer, halves rounded up. */
  function Round(num: int, den: int): (r: int)
    requires den > 0
    ensures 2 * r * den - den <= 2 * num < 2 * r * den + den
  {
    var q := (2 * num + den) / (2 * den);
    assert 2 * den * q <= 2 * num + den < 2 * den * q + 2 * den;
    q
  }

  /** `serviceFee = Math.round(totalRent * 0.1)` with `totalRent = nights * rent / 30`,
      that is ten percent of the stay, to the nearest rupee. */
  function ServiceFee(nights: int, rent: int): (fee: int)
    ensures 600 * fee - 300 <= 2 * (nights * rent) < 600 * fee + 300
    ensures nights == 0 ==> fee == 0
    ensures nights >= 0 && rent >= 0 ==> fee >= 0
  {
    Round(nights * rent, 300)
  }

  /** `totalAmount = Math.round(totalRent + serviceFee)`: the stay plus the fee, to the
      nearest rupee. */
  function TotalAmount(nights: int, rent: int): (total: int)
    ensures 60 * total - 30 <= 2 * (nights * rent + 30 * ServiceFee(nights, rent)) < 60 * total + 30
    ensures nights == 0 ==> total == 0
    ensures nights >= 0 && rent >= 0 ==> total >= 0
  {
    Round(nights * rent + 30 * ServiceFee(nights, rent), 30)
  }

  /** The lines of the price breakdown: nightly rate, stay total, fee and grand total. */
  datatype PriceBreakdown = PriceBreakdown(nightly: int, nights: int, stay: int, serviceFee: int, total: int)

  /** The price breakdown, rendered only when there is at least one night. */
  function Breakdown(rent: int, checkIn: Option<int>, checkOut: Option<int>): (r: Option<PriceBreakdown>)
    ensures r.Some? <==> checkIn.Some? && checkOut.Some? && checkIn.value < checkOut.value
    ensures r.Some? ==> r.value.nights >= 1 && r.value.total == TotalAmount(r.value.nights, rent)
    ensures r.Some? ==> r.value.nights == CalculateNights(checkIn, checkOut)
    ensures r.Some? ==> r.value.nightly == Round(rent, 30) && r.value.stay == Round(r.value.nights * rent, 30)
    ensures r.Some? ==> r.value.serviceFee == ServiceFee(r.value.nights, rent)
  {
    NightsPositiveIffValidRange(checkIn, checkOut);
    var nights := CalculateNights(checkIn, checkOut);
    if nights > 0 then
      Some(PriceBreakdown(Round(rent, 30), nights, Round(nights * rent, 30), ServiceFee(nights, rent), TotalAmount(nights, rent)))
    else None
  }

  /** Rent 8500 over three nights: 283 a night, 850 for the stay, a fee of 85, 935 in all. */
  lemma PricingExample()
    ensures Breakdown(8500, Some(0), Some(3 * MsPerDay)) == Some(PriceBreakdown(283, 3, 850, 85, 935))
  {
    assert CalculateNights(Some(0), Some(3 * MsPerDay)) == 3;
  }

  /** The dialog's own state. */
  datatype ReserveForm = ReserveForm(open: bool, checkIn: Option<int>, checkOut: Option<int>, submitting: bool)

  /** The row inserted into `checkouts`. Dates are kept as instants; their calendar
      formatting is not modelled. */
  datatype CheckoutRow = CheckoutRow(
    userId: string, pgId: string, pgName: string, pgLocation: string, pgPrice: int,
    checkIn: int, checkOut: int, status: string)

  /** The Reserve button is disabled while submitting or while a date is missing. */
  function ReserveDisabled(form: ReserveForm): (disabled: bool)
    ensures !disabled ==> form.checkIn.Some? && form.checkOut.Some? && !form.submitting
    ensures form.submitting ==> disabled
  {
    form.submitting || form.checkIn.None? || form.checkOut.None?
  }

  /** The button is disabled for the whole insert, and enabled again afterwards exactly
      when both dates are still chosen. */
  lemma ReserveDisabledWhileSubmitting(user: Option<string>, pg: Listing, form: ReserveForm, reply: StoreReply)
    requires BeginReserve(user, pg, form).Submitting?
    ensures ReserveDisabled(BeginReserve(user, pg, form).form)
    ensures !ReserveDisabled(FinishReserve(BeginReserve(user, pg, form).form, reply).form)
  {
  }

  /** The three checks of `handleReserve`, in order. */
  predicate PassesChecks(user: Option<string>, form: ReserveForm) {
    user.Some? && form.checkIn.Some? && form.checkOut.Some? && form.checkIn.value < form.checkOut.value
  }

  /** First half of `handleReserve`: the checks, then the insert request. */
  datatype ReserveStart =
    | Rejected(toast: Toast, navigateTo: Option<string>)
    | Submitting(row: CheckoutRow, form: ReserveForm)

  function BeginReserve(user: Option<string>, pg: Listing, form: ReserveForm): (r: ReserveStart)
    ensures r.Submitting? <==> PassesChecks(user, form)
    ensures user.None? ==> r.Rejected? && r.toast.title == "Login required" && r.navigateTo == Some(AuthRoute)
    ensures user.Some? && (form.checkIn.None? || form.checkOut.None?) ==>
              r.Rejected? && r.toast.title == "Select dates" && r.navigateTo.None?
    ensures user.Some? && form.checkIn.Some? && form.checkOut.Some? && form.checkOut.value <= form.checkIn.value ==>
              r.Rejected? && r.toast.title == "Invalid dates" && r.navigateTo.None?
    ensures r.Rejected? ==> r.toast.destructive
    ensures r.Submitting? ==>
              && r.form == form.(submitting := true)
              && ReserveDisabled(r.form)
              && r.row.userId == user.value && r.row.pgId == pg.id && r.row.pgName == pg.name
              && r.row.pgLocation == pg.address && r.row.status == "pending"
              && r.row.checkIn == form.checkIn.value && r.row.checkOut == form.checkOut.value
              && Breakdown(pg.rent, form.checkIn, form.checkOut).Some?
              && r.row.pgPrice == Breakdown(pg.rent, form.checkIn, form.checkOut).value.total
  {
    if user.None? then
      Rejected(Toast("Login required", "Please login to make a reservation", true), Some(AuthRoute))
    else if form.checkIn.None? || form.checkOut.None? then
      Rejected(Toast("Select dates", "Please select check-in and check-out dates", true), None)
    else if form.checkOut.value <= form.checkIn.value then
      Rejected(Toast("Invalid dates", "Check-out date must be after check-in date", true), None)
    else
      var nights := CalculateNights(form.checkIn, form.checkOut);
      var row := CheckoutRow(user.value, pg.id, pg.name, pg.address, TotalAmount(nights, pg.rent),
                             form.checkIn.value, form.checkOut.value, "pending");
      Submitting(row, form.(submitting := true))
  }

  datatype ReserveFinish = ReserveFinish(form: ReserveForm, toast: Toast, navigateTo: Option<string>)

  /** The message shown for a failed insert: the store's message, or a fixed fallback. */
  function ErrorText(message: Option<string>): (t: string)
    ensures t != ""
    ensures message.Some? && message.value != "" ==> t == message.value
    ensures message.None? || message.value == "" ==> t == "Failed to make reservation"
  {
    NonEmptyOr(message, "Failed to make reservation")
  }

  /** Second half of `handleReserve`: the store's answer to the insert. */
  function FinishReserve(form: ReserveForm, reply: StoreReply): (r: ReserveFinish)
    ensures !r.form.submitting
    ensures r.form.checkIn == form.checkIn && r.form.checkOut == form.checkOut
    ensures reply.StoreOk? ==> !r.form.open && r.navigateTo == Some(ProfileRoute) && !r.toast.destructive
    ensures reply.StoreError? ==>
              r.form.open == form.open && r.navigateTo.None? && r.toast.destructive
              && r.toast.description == ErrorText(reply.message)
  {
    match reply
    case StoreOk =>
      ReserveFinish(form.(open := false, submitting := false),
                    Toast("Reservation confirmed!", "Your booking has been submitted successfully.", false),
                    Some(ProfileRoute))
    case StoreError(message) =>
      ReserveFinish(form.(submitting := false), Toast("Error", ErrorText(message), true), None)
  }

  /** Everything one press of Reserve does, given the store's answer should an insert be sent. */
  datatype ReserveOutcome = ReserveOutcome(form: ReserveForm, inserts: seq<CheckoutRow>, toast: Toast, navigateTo: Option<string>)

  function HandleReserve(user: Option<string>, pg: Listing, form: ReserveForm, reply: StoreReply): (r: ReserveOutcome)
    ensures |r.inserts| <= 1
    ensures |r.inserts| == 1 <==> PassesChecks(user, form)
    ensures |r.inserts| == 0 ==> r.form == form
    ensures |r.inserts| == 1 ==>
              && !r.form.submitting
              && r.inserts[0].status == "pending"
              && r.inserts[0].pgPrice == TotalAmount(CalculateNights(form.checkIn, form.checkOut), pg.rent)
              && r.inserts[0].pgLocation == pg.address
              && (reply.StoreOk? ==> !r.form.open && r.navigateTo == Some(ProfileRoute))
              && (reply.StoreError? ==> r.form == form.(submitting := false) && r.toast.description == ErrorText(reply.message))
  {
    match BeginReserve(user, pg, form)
    case Rejected(toast, nav) => ReserveOutcome(form, [], toast, nav)
    case Submitting(row, busy) =>
      var fin := FinishReserve(busy, reply);
      ReserveOutcome(fin.form, [row], fin.toast, fin.navigateTo)
  }
}

=== FILE: claim_wizard.dfy ===
/** The owner "list your PG" wizard: phone, one-time code, search, claim, done. */
module ClaimWizard {
  import opened Wrappers
  import opened Seqs
  import opened Text

  datatype Step = Login | Otp | Search | Claim | Success

  datatype Wizard = Wizard(step: Step, phone: string, otp: string, query: string, selected: Option<string>)

  const Start := Wizard(Login, "", "", "", None)

  const PhoneLength: nat := 10
  const OtpLength: nat := 6

  /** `raw.replace(/\D/g, "").slice(0, cap)`: the leading `cap` digits of the input. */
  function Sanitize(raw: string, cap: nat): (r: string)
    ensures AllDigits(r)
    ensures |r| == if |DigitsOnly(raw)| < cap then |DigitsOnly(raw)| else cap
    ensures r == DigitsOnly(raw)[..|r|]
    ensures AllDigits(raw) && |raw| <= cap ==> r == raw
  {
    if AllDigits(raw) then DigitsOnlyOfDigits(raw); Take(DigitsOnly(raw), cap)
    else Take(DigitsOnly(raw), cap)
  }

  /** Sanitising twice is sanitising once. */
  lemma SanitizeIdempotent(raw: string, cap: nat)
    ensures Sanitize(Sanitize(raw, cap), cap) == Sanitize(raw, cap)
  {
  }

  /** One of the two places the claimant can pick from. */
  datatype SearchResult = SearchResult(id: string, name: string, address: string, googleRating: real)

  const MockSearchResults: seq<SearchResult> := [
    SearchResult("search-1", "Green Living PG", "Sector 62, Noida", 4.2),
    SearchResult("search-2", "Comfort Stay PG", "Sector 63, Noida", 3.9)
  ]

  /** `handleSendOTP`: a complete phone number moves to the code step; otherwise nothing. */
  function HandleSendOtp(w: Wizard): (r: Wizard)
    ensures |w.phone| == PhoneLength ==> r == w.(step := Otp)
    ensures |w.phone| != PhoneLength ==> r == w
  {
    if |w.phone| == PhoneLength then w.(step := Otp) else w
  }

  /** `handleVerifyOTP`: a complete code moves to the search step; otherwise nothing. */
  function HandleVerifyOtp(w: Wizard): (r: Wizard)
    ensures |w.otp| == OtpLength ==> r == w.(step := Search)
    ensures |w.otp| != OtpLength ==> r == w
  {
    if |w.otp| == OtpLength then w.(step := Search) else w
  }

  /** The controls of the wizard. */
  datatype Event =
    | TypePhone(raw: string) | SendOtp
    | TypeOtp(code: string) | VerifyOtp | ChangeNumber
    | TypeQuery(text: string) | RunSearch | ClaimResult(id: string)
    | SubmitClaim | SearchAgain

  /** Whether the control is on screen at the current step. Claim buttons appear once the
      query is non-empty, one per search result. */
  predicate Offered(w: Wizard, e: Event) {
    match e
    case TypePhone(_) => w.step == Login
    case SendOtp => w.step == Login
    case TypeOtp(_) => w.step == Otp
    case VerifyOtp => w.step == Otp
    case ChangeNumber => w.step == Otp
    case TypeQuery(_) => w.step == Search
    case RunSearch => w.step == Search
    case ClaimResult(id) => w.step == Search && w.query != "" && exists k :: 0 <= k < |MockSearchResults| && MockSearchResults[k].id == id
    case SubmitClaim => w.step == Claim
    case SearchAgain => w.step == Claim
  }

  /** The handler behind each control. */
  function Apply(w: Wizard, e: Event): Wizard {
    match e
    case TypePhone(raw) => w.(phone := Sanitize(raw, PhoneLength))
    case SendOtp => HandleSendOtp(w)
    case TypeOtp(code) => w.(otp := Sanitize(code, OtpLength))
    case VerifyOtp => HandleVerifyOtp(w)
    case ChangeNumber => w.(step := Login)
    case TypeQuery(text) => w.(query := text)
    case RunSearch => w
    case ClaimResult(id) => w.(selected := Some(id), step := Claim)
    case SubmitClaim => w.(step := Success)
    case SearchAgain => w.(step := Search)
  }

  /** The step changes the wizard may make: four forward edges and two back edges. */
  predicate Edge(from: Step, to: Step) {
    || (from == Login && to == Otp)
    || (from == Otp && to == Search)
    || (from == Otp && to == Login)
    || (from == Search && to == Claim)
    || (from == Claim && to == Search)
    || (from == Claim && to == Success)
  }

  /** The inputs hold only digits within their caps, and a claim has a chosen result. */
  predicate WellFormed(w: Wizard) {
    && AllDigits(w.phone) && |w.phone| <= PhoneLength
    && AllDigits(w.otp) && |w.otp| <= OtpLength
    && (w.step == Claim || w.step == Success ==> w.selected.Some?)
  }

  /** One user action; controls that are not on screen do nothing. */
  function Dispatch(w: Wizard, e: Event): (r: Wizard)
    ensures WellFormed(w) ==> WellFormed(r)
    ensures r.step != w.step ==> Edge(w.step, r.step)
    ensures w.step == Login && r.step == Otp ==> |w.phone| == PhoneLength
    ensures w.step == Otp && r.step == Search ==> |w.otp| == OtpLength
    ensures w.step == Success ==> r == w
    ensures r.step == Claim && w.step != Claim ==>
              r.selected.Some? && exists k :: 0 <= k < |MockSearchResults| && MockSearchResults[k].id == r.selected.value
  {
    if Offered(w, e) then Apply(w, e) else w
  }

  /** A sequence of user actions from a given state. */
  function Run(w: Wizard, events: seq<Event>): (r: Wizard)
    ensures WellFormed(w) ==> WellFormed(r)
    decreases |events|
  {
    if |events| == 0 then w else Run(Dispatch(w, events[0]), events[1..])
  }

  /** The wizard's starting state is well formed, so every reachable state is. */
  lemma StartWellFormed()
    ensures Start.step == Login && WellFormed(Start)
  {
  }

  /** Typing a digit string that fits keeps it as typed. */
  lemma TypeFittingDigits(w: Wizard, raw: string, code: string)
    requires AllDigits(raw) && |raw| <= PhoneLength && AllDigits(code) && |code| <= OtpLength
    ensures w.step == Login ==> Dispatch(w, TypePhone(raw)) == w.(phone := raw)
    ensures w.step == Otp ==> Dispatch(w, TypeOtp(code)) == w.(otp := code)
  {
  }

  /** Running two lists of events is running the first, then the second. */
  lemma {:induction false} RunAppend(w: Wizard, a: seq<Event>, b: seq<Event>)
    ensures Run(w, a + b) == Run(Run(w, a), b)
    decreases |a|
  {
    if |a| > 0 {
      assert (a + b)[0] == a[0];
      assert (a + b)[1..] == a[1..] + b;
      RunAppend(Dispatch(w, a[0]), a[1..], b);
    } else {
      assert a + b == b;
    }
  }

  /** Running a non-empty list of events is dispatching the first and running the rest. */
  lemma RunOne(w: Wizard, e: Event, rest: seq<Event>)
    ensures Run(w, [e] + rest) == Run(Dispatch(w, e), rest)
  {
    assert ([e] + rest)[1..] == rest;
  }

  /** Entering a full number and sending it reaches the code step. */
  lemma PhonePath(w: Wizard, phone: string)
    requires w.step == Login && AllDigits(phone) && |phone| == PhoneLength
    ensures Run(w, [TypePhone(phone), SendOtp]) == w.(phone := phone, step := Otp)
  {
    var w1 := w.(phone := phone);
    TypeFittingDigits(w, phone, "");
    RunOne(w, TypePhone(phone), [SendOtp]);
    RunOne(w1, SendOtp, []);
  }

  /** Entering a full code and verifying it reaches the search step. */
  lemma CodePath(w: Wizard, code: string)
    requires w.step == Otp && AllDigits(code) && |code| == OtpLength
    ensures Run(w, [TypeOtp(code), VerifyOtp]) == w.(otp := code, step := Search)
  {
    var w1 := w.(otp := code);
    TypeFittingDigits(w, "", code);
    RunOne(w, TypeOtp(code), [VerifyOtp]);
    RunOne(w1, VerifyOtp, []);
  }

  /** Signing in: a full number, send, a full code, verify lands on the search step. */
  lemma SignInPath(w: Wizard, phone: string, code: string)
    requires w.step == Login
    requires AllDigits(phone) && |phone| == PhoneLength
    requires AllDigits(code) && |code| == OtpLength
    ensures Run(w, [TypePhone(phone), SendOtp] + [TypeOtp(code), VerifyOtp])
            == w.(phone := phone, otp := code, step := Search)
  {
    RunAppend(w, [TypePhone(phone), SendOtp], [TypeOtp(code), VerifyOtp]);
    PhonePath(w, phone);
    CodePath(w.(phone := phone, step := Otp), code);
  }

  /** Claiming: a query, the first result's claim button, submit reaches the end. */
  lemma ClaimPath(w: Wizard, query: string)
    requires w.step == Search && query != ""
    ensures Run(w, [TypeQuery(query), ClaimResult("search-1"), SubmitClaim])
            == w.(query := query, selected := Some("search-1"), step := Success)
  {
    var w1 := w.(query := query);
    var w2 := w1.(selected := Some("search-1"), step := Claim);
    assert MockSearchResults[0].id == "search-1";
    assert Dispatch(w1, ClaimResult("search-1")) == w2;
    RunOne(w, TypeQuery(query), [ClaimResult("search-1"), SubmitClaim]);
    RunOne(w1, ClaimResult("search-1"), [SubmitClaim]);
    RunOne(w2, SubmitClaim, []);
  }

  /** The whole happy path from the start: number, code, search, claim, submit. */
  lemma HappyPath(phone: string, code: string, query: string)
    requires AllDigits(phone) && |phone| == PhoneLength
    requires AllDigits(code) && |code| == OtpLength
    requires query != ""
    ensures Run(Start, [TypePhone(phone), SendOtp, TypeOtp(code), VerifyOtp]
                       + [TypeQuery(query), ClaimResult("search-1"), SubmitClaim])
            == Wizard(Success, phone, code, query, Some("search-1"))
  {
    var signIn := [TypePhone(phone), SendOtp] + [TypeOtp(code), VerifyOtp];
    assert signIn == [TypePhone(phone), SendOtp, TypeOtp(code), VerifyOtp];
    var claim := [TypeQuery(query), ClaimResult("search-1"), SubmitClaim];
    RunAppend(Start, signIn, claim);
    SignInPath(Start, phone, code);
    ClaimPath(Start.(phone := phone, otp := code, step := Search), query);
  }

  /** The index of the progress circle that stands for a step (the code step shares the
      first circle). */
  function CircleOf(step: Step): Step {
    if step == Otp then Login else step
  }

  /** How many connectors a step has completed. */
  function Rank(step: Step): nat {
    match step
    case Login => 0
    case Otp => 0
    case Search => 1
    case Claim => 2
    case Success => 3
  }

  /** Progress circles for login, search and claim: lit for the current step, and all lit
      once the claim is submitted. */
  function CircleLit(step: Step, circle: Step): (lit: bool)
    requires circle == Login || circle == Search || circle == Claim
    ensures lit <==> CircleOf(step) == circle || step == Success
  {
    step == circle || (step == Otp && circle == Login) || step == Success
  }

  /** Connector `i` between circles `i` and `i + 1`: lit once the wizard is past it. */
  function ConnectorLit(step: Step, i: nat): (lit: bool)
    requires i < 2
    ensures lit <==> i < Rank(step)
  {
    (step == Search && i == 0) || (step == Claim && i <= 1) || step == Success
  }

  /** The result shown on the claim step: the first with the chosen id, if any. */
  function SelectedResult(w: Wizard): (r: Option<SearchResult>)
    ensures r.Some? ==> w.selected.Some? && r.value in MockSearchResults && r.value.id == w.selected.value
    ensures w.selected.Some? && (exists k :: 0 <= k < |MockSearchResults| && MockSearchResults[k].id == w.selected.value) ==> r.Some?
  {
    match w.selected
    case None => None
    case Some(id) =>
      match FirstIndex(MockSearchResults, (p: SearchResult) => p.id == id)
      case None => None
      case Some(k) => Some(MockSearchResults[k])
  }
}

=== FILE: effects.dfy ===
/** What the handlers emit instead of performing I/O: toast notifications, navigation
    targets, and the outcome of a call to the hosted store. */
module Effects {
  import opened Wrappers

  datatype Toast = Toast(title: string, description: string, destructive: bool)

  /** The answer of the hosted store to one request: success, or an error that may carry
      a message. */
  datatype StoreReply = StoreOk | StoreError(message: Option<string>)

  const AuthRoute := "/auth"
  const ProfileRoute := "/profile"
  const SearchRoute := "/search"
}

=== FILE: filter_panel.dfy ===
/** The filter panel: chip toggles, amenity check boxes, the rent slider, the active-filter
    badge, "Clear all", and the collapsible sections. */
module FilterPanel {
  import opened Seqs

  /** The search view's filter object; every field is always present. */
  datatype FilterState = FilterState(gender: string, food: string, minRent: int, maxRent: int, amenities: seq<string>)

  /** The amenity check boxes offered, in display order ("pool" is not offered). */
  const AmenityOptions: seq<string> := ["wifi", "ac", "laundry", "parking", "power_backup", "gym"]
  const GenderOptions: seq<string> := ["boys", "girls", "coliving"]
  const FoodOptions: seq<string> := ["veg", "nonveg"]

  /** `prev.includes(x) ? prev.filter(y => y !== x) : [...prev, x]`. */
  function Toggled<T(==,!new)>(l: seq<T>, x: T): (r: seq<T>)
    ensures x in r <==> x !in l
    ensures forall y :: y != x ==> (y in r <==> y in l)
    ensures x in l ==> IsSubsequence(r, l)
    ensures x !in l ==> |r| == |l| + 1 && r[..|l|] == l && r[|l|] == x
    ensures Distinct(l) ==> Distinct(r)
  {
    if x in l then
      assert Distinct(l) ==> Distinct(Filter(l, y => y != x)) by {
        if Distinct(l) {
          FilterPreservesDistinct(l, y => y != x);
        }
      }
      Filter(l, y => y != x)
    else
      var r := l + [x];
      assert r[..|l|] == l;
      assert Distinct(l) ==> Distinct(r) by {
        if Distinct(l) {
          forall i, j | 0 <= i < j < |r| ensures r[i] != r[j] {
            if j == |l| {
              assert r[i] == l[i];
            }
          }
        }
      }
      r
  }

  /** Toggling an absent element twice gives the list back. */
  lemma ToggleAbsentTwice<T(!new)>(l: seq<T>, x: T)
    requires x !in l
    ensures Toggled(Toggled(l, x), x) == l
  {
    var once := Toggled(l, x);
    assert once == l + [x];
    var keep := (y: T) => y != x;
    assert forall y :: y in l ==> keep(y);
    FilterKeepsAll(l, keep);
    FilterAppend(l, [x], keep);
    assert Filter([x], keep) == [];
  }

  /** Toggling a present element twice, in a duplicate-free list, moves it to the end:
      the same elements come back, but not necessarily in the same order. */
  lemma TogglePresentTwice<T(!new)>(l: seq<T>, x: T)
    requires Distinct(l) && x in l
    ensures multiset(Toggled(Toggled(l, x), x)) == multiset(l)
    ensures Toggled(Toggled(l, x), x)[|l| - 1] == x
  {
    var once := Toggled(l, x);
    RemovedOnce(l, x);
    ToggledLength(l, x);
    var twice := Toggled(once, x);
    assert twice == once + [x];
    assert multiset(twice) == multiset(once) + multiset{x};
  }

  /** Removing a present element of a duplicate-free list takes away one occurrence. */
  lemma RemovedOnce<T(!new)>(l: seq<T>, x: T)
    requires Distinct(l) && x in l
    ensures multiset(Toggled(l, x)) + multiset{x} == multiset(l)
  {
    var once := Toggled(l, x);
    DistinctCountsOnce(l, x);
    forall y ensures (multiset(once) + multiset{x})[y] == multiset(l)[y] {
      if y != x {
        assert multiset(once)[y] == multiset(l)[y];
      }
    }
  }

  /** On a duplicate-free list a toggle removes one element or adds one. */
  lemma ToggledLength<T(!new)>(l: seq<T>, x: T)
    requires Distinct(l)
    ensures |Toggled(l, x)| == if x in l then |l| - 1 else |l| + 1
  {
    if x in l {
      RemovedOnce(l, x);
      assert |multiset(Toggled(l, x))| + 1 == |multiset(l)|;
    }
  }

  /** An element of a duplicate-free sequence occurs exactly once. */
  lemma {:induction false} DistinctCountsOnce<T>(l: seq<T>, x: T)
    requires Distinct(l) && x in l
    ensures multiset(l)[x] == 1
    decreases |l|
  {
    DistinctTail(l);
    assert l == [l[0]] + l[1..];
    if l[0] != x {
      DistinctCountsOnce(l[1..], x);
    } else {
      assert multiset(l[1..])[x] == 0;
    }
  }

  /** A gender chip: choosing the active one resets to "all", choosing another selects it. */
  function ChooseGender(f: FilterState, option: string): (r: FilterState)
    requires option in GenderOptions
    ensures r.gender == option <==> f.gender != option
    ensures r.gender == "all" || r.gender == option
    ensures r == f.(gender := r.gender)
  {
    f.(gender := if f.gender == option then "all" else option)
  }

  /** A food chip, with the same toggle-to-"all" rule. */
  function ChooseFood(f: FilterState, option: string): (r: FilterState)
    requires option in FoodOptions
    ensures r.food == option <==> f.food != option
    ensures r.food == "all" || r.food == option
    ensures r == f.(food := r.food)
  {
    f.(food := if f.food == option then "all" else option)
  }

  /** An amenity check box: flips membership of that amenity only. */
  function ToggleAmenity(f: FilterState, amenity: string): (r: FilterState)
    ensures amenity in r.amenities <==> amenity !in f.amenities
    ensures forall a :: a != amenity ==> (a in r.amenities <==> a in f.amenities)
    ensures r == f.(amenities := r.amenities)
  {
    f.(amenities := Toggled(f.amenities, amenity))
  }

  /** The rent slider. */
  function SlideRent(f: FilterState, min: int, max: int): (r: FilterState)
    ensures r.minRent == min && r.maxRent == max
    ensures r.gender == f.gender && r.food == f.food && r.amenities == f.amenities
  {
    f.(minRent := min, maxRent := max)
  }

  /** The badge count: one per chosen gender or food and one per ticked amenity. */
  function ActiveFilterCount(f: FilterState): (n: nat)
    ensures n == 0 <==> f.gender == "all" && f.food == "all" && |f.amenities| == 0
    ensures |f.amenities| <= n <= |f.amenities| + 2
  {
    (if f.gender != "all" then 1 else 0) + (if f.food != "all" then 1 else 0) + |f.amenities|
  }

  /** A gender chip moves the count by one when it switches between "all" and a gender,
      and leaves it when it switches from one gender to another. */
  lemma ChooseGenderCount(f: FilterState, option: string)
    requires option in GenderOptions
    ensures ActiveFilterCount(ChooseGender(f, option)) ==
              if f.gender == option then ActiveFilterCount(f) - 1
              else if f.gender == "all" then ActiveFilterCount(f) + 1
              else ActiveFilterCount(f)
  {
  }

  /** The same for a food chip. */
  lemma ChooseFoodCount(f: FilterState, option: string)
    requires option in FoodOptions
    ensures ActiveFilterCount(ChooseFood(f, option)) ==
              if f.food == option then ActiveFilterCount(f) - 1
              else if f.food == "all" then ActiveFilterCount(f) + 1
              else ActiveFilterCount(f)
  {
  }

  /** On a duplicate-free amenity list, ticking an amenity adds one to the count and
      unticking it takes one away. */
  lemma ToggleAmenityCount(f: FilterState, amenity: string)
    requires Distinct(f.amenities)
    ensures ActiveFilterCount(ToggleAmenity(f, amenity)) ==
              if amenity in f.amenities then ActiveFilterCount(f) - 1 else ActiveFilterCount(f) + 1
  {
    ToggledLength(f.amenities, amenity);
  }

  /** Rent bounds never count as active filters. */
  lemma RentNeverCounts(f: FilterState, min: int, max: int)
    ensures ActiveFilterCount(SlideRent(f, min, max)) == ActiveFilterCount(f)
  {
  }

  /** `clearFilters`. */
  function ClearFilters(): (r: FilterState)
    ensures ActiveFilterCount(r) == 0
    ensures r.minRent == 0 && r.maxRent == 50000
  {
    FilterState("all", "all", 0, 50000, [])
  }

  /** "Clear all" is offered only when some filter is active. */
  function ShowClearAll(f: FilterState): (shown: bool)
    ensures shown <==> f.gender != "all" || f.food != "all" || |f.amenities| > 0
  {
    ActiveFilterCount(f) > 0
  }

  /** After "Clear all" the button disappears. */
  lemma ClearAllHidesItself(f: FilterState)
    ensures !ShowClearAll(ClearFilters())
  {
  }

  const InitialOpenSections: seq<string> := ["rent", "gender", "food", "amenities"]

  /** `toggleSection`: opens a closed section, closes an open one, leaves the others. */
  function ToggleSection(open: seq<string>, section: string): (r: seq<string>)
    ensures section in r <==> section !in open
    ensures forall s :: s != section ==> (s in r <==> s in open)
  {
    Toggled(open, section)
  }
}

=== FILE: listing_views.dfy ===
/** What the listing card and the listing details page derive from a listing: tags, amenity
    chips, labels, the not-found branch, the similar-listings column and the WhatsApp
    contact. */
module ListingViews {
  import opened Wrappers
  import opened Seqs
  import opened Text
  import opened Listings
  import opened Catalog

  /** The card's food tag: none for listings serving both, otherwise "Veg" or "Non-veg". */
  function FoodTag(f: Food): (tag: Option<string>)
    ensures tag.None? <==> f == BothFood
    ensures tag == Some("Veg") <==> f == Veg
    ensures tag == Some("Non-veg") <==> f == NonVeg
  {
    assert |"Veg"| != |"Non-veg"|;
    match f
    case BothFood => None
    case Veg => Some("Veg")
    case NonVeg => Some("Non-veg")
  }

  /** Number of occurrences of a character. */
  function Count(s: string, c: char): nat {
    multiset(s)[c]
  }

  /** `amenity.replace("_", " ")`: only the first underscore becomes a space. */
  function ChipText(amenity: string): (text: string)
    ensures |text| == |amenity|
    ensures '_' !in amenity ==> text == amenity
    ensures '_' in amenity ==> Count(text, '_') == Count(amenity, '_') - 1 && Count(text, ' ') == Count(amenity, ' ') + 1
    ensures '_' in amenity ==> exists k :: 0 <= k < |amenity| && amenity[k] == '_' && '_' !in amenity[..k] &&
                                  text == amenity[..k] + " " + amenity[k + 1..]
  {
    ReplaceFirst(amenity, '_', " ")
  }

  /** The space lands exactly where the first underscore was: a tag whose head has no
      underscore reads as the head, a space, and the rest unchanged. */
  lemma ChipTextAt(head: string, tail: string)
    requires '_' !in head
    ensures ChipText(head + "_" + tail) == head + " " + tail
  {
    ReplaceFirstAt(head, '_', tail, " ");
  }

  /** The chips on a card: the first three amenities at most, in listing order. */
  function Chips(amenities: seq<string>): (chips: seq<string>)
    ensures |chips| == if |amenities| < 3 then |amenities| else 3
    ensures forall i :: 0 <= i < |chips| ==> chips[i] == ChipText(amenities[i])
  {
    Map(Take(amenities, 3), ChipText)
  }

  /** The "+k" tag after the chips: present when more than three amenities are listed. */
  function Overflow(amenities: seq<string>): (k: Option<nat>)
    ensures k.Some? <==> |amenities| > 3
    ensures k.Some? ==> k.value > 0
  {
    if |amenities| > 3 then Some(|amenities| - 3) else None
  }

  /** The chips and the overflow count together account for every amenity exactly once. */
  lemma ChipsAndOverflowCoverAll(amenities: seq<string>)
    ensures |Chips(amenities)| + Overflow(amenities).GetOr(0) == |amenities|
  {
  }

  /** The gender badge, on the card and the details page: "Co-living" for co-living,
      otherwise the raw gender value. */
  function GenderBadge(g: Gender): (badge: string)
    ensures g == Coliving ==> badge == "Co-living"
    ensures g != Coliving ==> badge == GenderName(g)
  {
    if g == Coliving then "Co-living" else GenderName(g)
  }

  /** No two genders share a badge. */
  lemma GenderBadgeInjective(a: Gender, b: Gender)
    ensures GenderBadge(a) == GenderBadge(b) <==> a == b
  {
  }

  const DetailsPrefix := "/pg/"

  /** The card's link target. */
  function CardLink(id: string): (path: string)
    ensures |path| == |DetailsPrefix| + |id|
    ensures path[..|DetailsPrefix|] == DetailsPrefix && path[|DetailsPrefix|..] == id
  {
    DetailsPrefix + id
  }

  /** The `:id` of a `/pg/:id` route: one non-empty path segment after the prefix. */
  function RouteId(path: string): (id: Option<string>)
    ensures id.Some? <==> |path| > |DetailsPrefix| && path[..|DetailsPrefix|] == DetailsPrefix &&
                          '/' !in path[|DetailsPrefix|..]
    ensures id.Some? ==> id.value != "" && '/' !in id.value && path == DetailsPrefix + id.value
  {
    if |path| > |DetailsPrefix| && path[..|DetailsPrefix|] == DetailsPrefix && '/' !in path[|DetailsPrefix|..]
    then Some(path[|DetailsPrefix|..])
    else None
  }

  /** The route parameter of a card's link is its id, for any id that is one path segment. */
  lemma CardLinkRoundTrip(id: string)
    requires id != "" && '/' !in id
    ensures RouteId(CardLink(id)) == Some(id)
  {
  }

  /** A path with more than one segment after the prefix is not a details route. */
  lemma NestedPathIsNoRoute(id: string, rest: string)
    ensures RouteId(DetailsPrefix + id + "/" + rest) == None
  {
    var path := DetailsPrefix + id + "/" + rest;
    assert path[|DetailsPrefix|..][|id|] == '/';
  }

  /** The details page: not found, or the listing with the route's id. */
  datatype DetailsView = NotFound | Found(pg: Listing)

  /** `getPGById(id || "")`, then the not-found branch when nothing matches. */
  function Details(id: Option<string>): (v: DetailsView)
    ensures v.Found? ==> v.pg in MockPGs() && v.pg.id == id.GetOr("")
    ensures v.NotFound? <==> forall p :: p in MockPGs() ==> p.id != id.GetOr("")
  {
    match GetPGById(id.GetOr(""))
    case None => NotFound
    case Some(pg) => Found(pg)
  }

  /** Following a card's link opens the details of that very listing. */
  lemma CardOpensItsListing(i: nat)
    requires i < |MockPGs()|
    ensures Details(RouteId(CardLink(MockPGs()[i].id))) == Found(MockPGs()[i])
  {
    CatalogIdsDistinct();
    assert Ids(MockPGs())[i] == MockPGs()[i].id;
    CardLinkRoundTrip(MockPGs()[i].id);
    GetPGByIdFindsEachListing(i);
  }

  /** A missing route parameter, or one no listing carries, shows the not-found page. */
  lemma UnknownIdNotFound(id: Option<string>)
    requires id.None? || id.value !in Ids(MockPGs())
    ensures Details(id) == NotFound
  {
    CatalogIdsDistinct();
    forall p | p in MockPGs() ensures p.id != id.GetOr("") {
      var i :| 0 <= i < |MockPGs()| && MockPGs()[i] == p;
      assert Ids(MockPGs())[i] == p.id;
    }
  }

  /** The amenity table of the details page: tag and label. */
  const AmenityDetails: seq<(string, string)> := [
    ("wifi", "WiFi"), ("ac", "AC"), ("laundry", "Laundry"), ("parking", "Parking"),
    ("power_backup", "Power Backup"), ("gym", "Gym"), ("pool", "Pool")
  ]

  /** `amenityDetails[amenity]?.label || amenity`: the table's label for a known tag,
      otherwise the tag itself. */
  function AmenityLabel(amenity: string): (shown: string)
    ensures (exists i :: 0 <= i < |AmenityDetails| && AmenityDetails[i].0 == amenity) ==>
              exists i :: 0 <= i < |AmenityDetails| && AmenityDetails[i] == (amenity, shown)
    ensures (forall i :: 0 <= i < |AmenityDetails| ==> AmenityDetails[i].0 != amenity) ==> shown == amenity
  {
    match FirstIndex(AmenityDetails, (e: (string, string)) => e.0 == amenity)
    case None => amenity
    case Some(i) => if AmenityDetails[i].1 != "" then AmenityDetails[i].1 else amenity
  }

  /** A known tag never shows raw, since every label differs from its tag. */
  lemma KnownAmenityIsRelabelled(amenity: string)
    requires exists i :: 0 <= i < |AmenityDetails| && AmenityDetails[i].0 == amenity
    ensures AmenityLabel(amenity) != amenity
  {
  }

  /** The food line of the details page. */
  function FoodDescription(f: Food): (text: string)
    ensures f == Veg ==> text == "Vegetarian food available"
    ensures f == NonVeg ==> text == "Non-vegetarian food available"
    ensures f == BothFood ==> text == "Both veg and non-veg available"
  {
    match f
    case Veg => "Vegetarian food available"
    case NonVeg => "Non-vegetarian food available"
    case BothFood => "Both veg and non-veg available"
  }

  /** The three food lines are distinct, so the line tells the food option. */
  lemma FoodDescriptionInjective(a: Food, b: Food)
    ensures FoodDescription(a) == FoodDescription(b) <==> a == b
  {
  }

  /** The similar-listings column: every other listing of the catalog, in catalog order. */
  function SimilarListings(catalog: seq<Listing>, pg: Listing): (r: seq<Listing>)
    ensures pg !in r
    ensures forall p :: p in r <==> p in catalog && p.id != pg.id
    ensures IsSubsequence(r, catalog)
  {
    Filter(catalog, (p: Listing) => p.id != pg.id)
  }

  /** Dropping the first listing keeps the ids distinct. */
  lemma IdsDistinctTail(catalog: seq<Listing>)
    requires Distinct(Ids(catalog)) && |catalog| > 0
    ensures Distinct(Ids(catalog[1..]))
  {
    var tail := catalog[1..];
    forall i, j | 0 <= i < j < |tail| ensures Ids(tail)[i] != Ids(tail)[j] {
      assert Ids(catalog)[i + 1] != Ids(catalog)[j + 1];
    }
  }

  /** With distinct ids, no listing after the first shares the first one's id. */
  lemma HeadIdUnique(catalog: seq<Listing>, p: Listing)
    requires Distinct(Ids(catalog)) && |catalog| > 0
    requires p in catalog[1..]
    ensures p.id != catalog[0].id
  {
    var j :| 0 <= j < |catalog[1..]| && catalog[1..][j] == p;
    assert Ids(catalog)[0] != Ids(catalog)[j + 1];
  }

  /** With distinct ids, the column of a catalog listing holds all the others: one fewer
      than the catalog. */
  lemma {:induction false} SimilarDropsExactlyOne(catalog: seq<Listing>, pg: Listing)
    requires Distinct(Ids(catalog)) && pg in catalog
    ensures |SimilarListings(catalog, pg)| == |catalog| - 1
    decreases |catalog|
  {
    var keep := (p: Listing) => p.id != pg.id;
    var tail := catalog[1..];
    assert catalog == [catalog[0]] + tail;
    FilterAppend([catalog[0]], tail, keep);
    IdsDistinctTail(catalog);
    if catalog[0] == pg {
      assert Filter([catalog[0]], keep) == [];
      forall p | p in tail ensures keep(p) {
        HeadIdUnique(catalog, p);
      }
      FilterKeepsAll(tail, keep);
    } else {
      assert pg in tail;
      HeadIdUnique(catalog, pg);
      assert Filter([catalog[0]], keep) == [catalog[0]];
      SimilarDropsExactlyOne(tail, pg);
    }
  }

  /** On the shipped catalog, every details page lists the five other listings. */
  lemma CatalogSimilarIsFive(i: nat)
    requires i < |MockPGs()|
    ensures |SimilarListings(MockPGs(), MockPGs()[i])| == 5
  {
    CatalogIdsDistinct();
    SimilarDropsExactlyOne(MockPGs(), MockPGs()[i]);
  }

  /** `ownerWhatsApp.replace("+", "")`: the number with its first plus sign removed. */
  function WhatsAppNumber(pg: Listing): (number: string)
    ensures '+' in pg.ownerWhatsApp ==> |number| == |pg.ownerWhatsApp| - 1 && Count(number, '+') == Count(pg.ownerWhatsApp, '+') - 1
    ensures '+' !in pg.ownerWhatsApp ==> number == pg.ownerWhatsApp
    ensures forall c :: c != '+' ==> Count(number, c) == Count(pg.ownerWhatsApp, c)
    ensures '+' in pg.ownerWhatsApp ==>
              exists k :: 0 <= k < |pg.ownerWhatsApp| && pg.ownerWhatsApp[k] == '+' && '+' !in pg.ownerWhatsApp[..k] &&
                number == pg.ownerWhatsApp[..k] + pg.ownerWhatsApp[k + 1..]
  {
    DeleteFirstAt(pg.ownerWhatsApp, '+');
    ReplaceFirst(pg.ownerWhatsApp, '+', "")
  }

  /** An international number written with a leading plus is sent as its digits. */
  lemma WhatsAppNumberDropsLeadingPlus(pg: Listing, rest: string)
    requires pg.ownerWhatsApp == "+" + rest
    ensures WhatsAppNumber(pg) == rest
  {
    ReplaceFirstAt("", '+', rest, "");
    assert "" + ['+'] + rest == "+" + rest;
  }

  const MessageHead := "Hi, I'm interested in "
  const MessageTail := ". Is it available?"

  /** Every catalog listing's chat link carries its WhatsApp number without the leading `+`. */
  lemma CatalogWhatsAppNumbers(i: nat)
    requires i < |MockPGs()|
    ensures WhatsAppNumber(MockPGs()[i]) == MockPGs()[i].ownerWhatsApp[1..]
  {
    CatalogListingsWellFormed(i);
    var w := MockPGs()[i].ownerWhatsApp;
    assert w == "+" + w[1..];
    WhatsAppNumberDropsLeadingPlus(MockPGs()[i], w[1..]);
  }

  /** The prefilled WhatsApp message: the listing's name inside a fixed template. */
  function WhatsAppMessage(pg: Listing): (message: string)
    ensures |message| == |MessageHead| + |pg.name| + |MessageTail|
    ensures message[..|MessageHead|] == MessageHead
    ensures message[|MessageHead|..|MessageHead| + |pg.name|] == pg.name
    ensures message[|MessageHead| + |pg.name|..] == MessageTail
  {
    MessageHead + pg.name + MessageTail
  }

  /** Different names give different messages. */
  lemma WhatsAppMessageNamesListing(a: Listing, b: Listing)
    requires WhatsAppMessage(a) == WhatsAppMessage(b)
    ensures a.name == b.name
  {
    var m := WhatsAppMessage(a);
    assert |a.name| == |b.name|;
    assert a.name == m[|MessageHead|..|MessageHead| + |a.name|];
  }
}

=== FILE: listings.dfy ===
/** The listing record and its categorical fields. */
module Listings {

  datatype Gender = Boys | Girls | Coliving
  datatype Food = Veg | NonVeg | BothFood

  /** The string each gender policy carries in listings, filters and query strings. */
  function GenderName(g: Gender): (s: string)
    ensures s != "" && s != "all"
  {
    match g
    case Boys => "boys"
    case Girls => "girls"
    case Coliving => "coliving"
  }

  function FoodName(f: Food): (s: string)
    ensures s != "" && s != "all"
  {
    match f
    case Veg => "veg"
    case NonVeg => "nonveg"
    case BothFood => "both"
  }

  lemma GenderNameInjective(a: Gender, b: Gender)
    ensures GenderName(a) == GenderName(b) <==> a == b
  {
  }

  lemma FoodNameInjective(a: Food, b: Food)
    ensures FoodName(a) == FoodName(b) <==> a == b
  {
  }

  /** One paying-guest listing. Rent and deposit are whole rupees per month; the rating is
      a decimal shown as written. Coordinates and the precomputed distance are not modelled. */
  datatype Listing = Listing(
    id: string,
    name: string,
    address: string,
    rating: real,
    reviewCount: nat,
    rent: int,
    deposit: int,
    gender: Gender,
    food: Food,
    images: seq<string>,
    amenities: seq<string>,
    verified: bool,
    ownerPhone: string,
    ownerWhatsApp: string,
    rules: seq<string>,
    description: string
  )
}

=== FILE: profile.dfy ===
/** The profile page: the avatar initials, the booking status badge, removal of a saved
    listing, and the redirect of signed-out visitors. */
module Profile {
  import opened Wrappers
  import opened Seqs
  import opened Text
  import opened Effects

  /** The first character of every non-empty word, in order (`map(n => n[0]).join("")`,
      where an empty word contributes nothing). */
  function Firsts(words: seq<string>): (r: string)
    ensures |r| <= |words|
    ensures r == "" <==> forall i :: 0 <= i < |words| ==> words[i] == ""
    decreases |words|
  {
    if |words| == 0 then ""
    else
      var rest := Firsts(words[1..]);
      assert forall i :: 1 <= i < |words| ==> words[i] == words[1..][i - 1];
      (if words[0] != "" then [words[0][0]] else "") + rest
  }

  /** A single word contributes its first character, or nothing when it is empty. */
  lemma FirstsOfWord(w: string)
    ensures Firsts([w]) == if w == "" then "" else [w[0]]
  {
  }

  /** The initials of two runs of words are the initials of each, one after the other. */
  lemma {:induction false} FirstsAppend(a: seq<string>, b: seq<string>)
    ensures Firsts(a + b) == Firsts(a) + Firsts(b)
    decreases |a|
  {
    if |a| == 0 {
      assert a + b == b;
    } else {
      assert (a + b)[0] == a[0];
      assert (a + b)[1..] == a[1..] + b;
      FirstsAppend(a[1..], b);
    }
  }

  /** Whether a character is an ASCII lower-case letter. */
  predicate IsLower(c: char) {
    'a' <= c <= 'z'
  }

  /** The avatar initials: the upper-cased first letters of the words of the full name;
      failing that, the upper-cased first character of the e-mail; failing that, "U".
      An empty e-mail address has no first character and the page would fail on it, so
      it is excluded. */
  function Initials(fullName: Option<string>, email: Option<string>): (r: string)
    requires email.None? || email.value != ""
    ensures r != ""
    ensures forall i :: 0 <= i < |r| ==> !IsLower(r[i])
    ensures fullName.Some? && Firsts(Split(fullName.value, ' ')) != "" ==>
              r == Upper(Firsts(Split(fullName.value, ' ')))
    ensures (fullName.None? || Firsts(Split(fullName.value, ' ')) == "") && email.Some? ==>
              r == [UpperChar(email.value[0])]
    ensures (fullName.None? || Firsts(Split(fullName.value, ' ')) == "") && email.None? ==> r == "U"
  {
    var fromName := if fullName.Some? then Upper(Firsts(Split(fullName.value, ' '))) else "";
    if fromName != "" then fromName
    else if email.Some? then [UpperChar(email.value[0])]
    else "U"
  }

  /** A name typed as words separated by single spaces gives the first letter of each
      non-empty word, upper-cased. */
  lemma InitialsOfWords(words: seq<string>, email: Option<string>)
    requires |words| >= 1 && forall i :: 0 <= i < |words| ==> ' ' !in words[i]
    requires Firsts(words) != ""
    requires email.None? || email.value != ""
    ensures Initials(Some(JoinWith(words, ' ')), email) == Upper(Firsts(words))
  {
    SplitJoinWith(words, ' ');
  }

  /** A name of spaces only, or no name at all, falls back to the e-mail. */
  lemma BlankNameFallsBack(fullName: Option<string>, email: string)
    requires fullName.None? || forall i :: 0 <= i < |fullName.value| ==> fullName.value[i] == ' '
    requires email != ""
    ensures Initials(fullName, Some(email)) == [UpperChar(email[0])]
  {
    if fullName.Some? {
      var words := Split(fullName.value, ' ');
      forall i | 0 <= i < |words| ensures words[i] == "" {
        assert words[i] in words;
        if words[i] != "" {
          assert words[i][0] in JoinWith(words, ' ') by {
            JoinContainsWord(words, ' ', i);
          }
        }
      }
    }
  }

  /** Every character of every word appears in the join. */
  lemma {:induction false} JoinContainsWord(words: seq<string>, sep: char, i: nat)
    requires i < |words|
    ensures forall c :: c in words[i] ==> c in JoinWith(words, sep)
    decreases |words|
  {
    if |words| > 1 {
      if i > 0 {
        JoinContainsWord(words[1..], sep, i - 1);
      }
    }
  }

  const ConfirmedColor := "bg-success/10 text-success border-success/20"
  const PendingColor := "bg-warning/10 text-warning border-warning/20"
  const CancelledColor := "bg-destructive/10 text-destructive border-destructive/20"
  const DefaultColor := "bg-muted text-muted-foreground"

  /** `getStatusColor`: a class set for each of the three known statuses, and the muted
      default for every other value, null included. */
  function StatusColor(status: Option<string>): (classes: string)
    ensures status == Some("confirmed") <==> classes == ConfirmedColor
    ensures status == Some("pending") <==> classes == PendingColor
    ensures status == Some("cancelled") <==> classes == CancelledColor
    ensures classes == DefaultColor <==>
              status.None? || (status.value != "confirmed" && status.value != "pending" && status.value != "cancelled")
  {
    match status
    case Some("confirmed") => ConfirmedColor
    case Some("pending") => PendingColor
    case Some("cancelled") => CancelledColor
    case _ => DefaultColor
  }

  /** The badge text: the status, or "pending" when it is null or empty. */
  function StatusLabel(status: Option<string>): (text: string)
    ensures text != ""
    ensures status.Some? && status.value != "" ==> text == status.value
    ensures status.None? || status.value == "" ==> text == "pending"
  {
    NonEmptyOr(status, "pending")
  }

  /** A booking with no status reads "pending" on its badge, yet is coloured with the
      muted default rather than the pending colours. */
  lemma MissingStatusShowsPendingUncoloured()
    ensures StatusLabel(None) == StatusLabel(Some("pending")) == "pending"
    ensures StatusColor(None) == DefaultColor != StatusColor(Some("pending"))
  {
  }

  /** One saved listing as the profile page holds it: the row id and the listing shown. */
  datatype SavedEntry = SavedEntry(id: string, pgId: string, pgName: string)

  /** The saved list after `removeSavedPG`, and whether the "Removed" toast is shown. */
  datatype RemoveOutcome = RemoveOutcome(saved: seq<SavedEntry>, toast: Option<Toast>)

  /** `removeSavedPG`: after the store deletes the row, drop the rows with that row id and
      keep the rest in order; when the store reports an error, change nothing. */
  function RemoveSavedPG(saved: seq<SavedEntry>, id: string, reply: StoreReply): (r: RemoveOutcome)
    ensures reply.StoreError? ==> r.saved == saved && r.toast.None?
    ensures reply.StoreOk? ==> r.toast.Some? && !r.toast.value.destructive
    ensures reply.StoreOk? ==> IsSubsequence(r.saved, saved)
    ensures reply.StoreOk? ==> forall e :: e in r.saved <==> e in saved && e.id != id
  {
    if reply.StoreOk? then
      RemoveOutcome(Filter(saved, (e: SavedEntry) => e.id != id),
                    Some(Toast("Removed", "PG removed from saved list.", false)))
    else RemoveOutcome(saved, None)
  }

  /** Removing the same row twice leaves what removing it once left. */
  lemma RemoveTwiceIsRemoveOnce(saved: seq<SavedEntry>, id: string)
    ensures RemoveSavedPG(RemoveSavedPG(saved, id, StoreOk).saved, id, StoreOk).saved ==
            RemoveSavedPG(saved, id, StoreOk).saved
  {
    var once := RemoveSavedPG(saved, id, StoreOk).saved;
    FilterKeepsAll(once, (e: SavedEntry) => e.id != id);
  }

  /** Once authentication has settled with nobody signed in, the page sends the visitor
      to the sign-in page; while it is still loading, nothing happens. */
  function AuthRedirect(authLoading: bool, user: Option<string>): (target: Option<string>)
    ensures target.Some? <==> !authLoading && user.None?
    ensures target.Some? ==> target.value == AuthRoute
  {
    if !authLoading && user.None? then Some(AuthRoute) else None
  }
}

=== FILE: search.dfy ===
/** The search bar and the search page: which query parameters a search emits, how the
    page reads them back into filter state, and what the page then lists. A query is the
    ordered list of key/value pairs of a `URLSearchParams`; its text encoding is not
    modelled. */
module Search {
  import opened Wrappers
  import opened Seqs
  import opened Text
  import opened Listings
  import opened Catalog
  import opened Effects
  import opened FilterPanel

  datatype Param = Param(key: string, value: string)

  type Query = seq<Param>

  /** The keys a search may emit, in the order it emits them. */
  const ParamOrder: seq<string> := ["location", "gender", "minRent", "maxRent"]

  function Keys(q: Query): seq<string> {
    Map(q, (p: Param) => p.key)
  }

  predicate HasKey(q: Query, key: string) {
    exists i :: 0 <= i < |q| && q[i].key == key
  }

  /** `URLSearchParams.get`: the value of the first pair with the key, if any. */
  function Get(q: Query, key: string): (v: Option<string>)
    ensures v.None? <==> !HasKey(q, key)
    ensures v.Some? ==> exists i :: 0 <= i < |q| && q[i] == Param(key, v.value) &&
                          forall j :: 0 <= j < i ==> q[j].key != key
  {
    match FirstIndex(q, (p: Param) => p.key == key)
    case None => None
    case Some(i) => Some(q[i].value)
  }

  /** What the search bar holds: free-text location, gender choice and budget range. */
  datatype SearchInput = SearchInput(location: string, gender: string, minBudget: nat, maxBudget: nat)

  /** The bar's initial state when nothing is passed in. */
  const DefaultSearch := SearchInput("", "all", 0, 25000)

  /** The first pair with a key determines `get`. */
  lemma GetFirst(q: Query, i: nat, key: string)
    requires i < |q| && q[i].key == key
    requires forall j :: 0 <= j < i ==> q[j].key != key
    ensures Get(q, key) == Some(q[i].value)
  {
  }

  /** A key no pair carries is absent. */
  lemma GetMissing(q: Query, key: string)
    requires forall j :: 0 <= j < |q| ==> q[j].key != key
    ensures Get(q, key) == None
  {
  }

  /** The parameters `handleSearch` sets, in order: location when non-empty, gender unless
      "all", then both budget ends; no key twice. */
  function BuildParams(s: SearchInput): (q: Query)
    ensures HasKey(q, "location") <==> s.location != ""
    ensures HasKey(q, "gender") <==> s.gender != "all"
    ensures HasKey(q, "minRent") && HasKey(q, "maxRent")
    ensures IsSubsequence(Keys(q), ParamOrder)
    ensures Distinct(Keys(q))
  {
    var location := if s.location != "" then [Param("location", s.location)] else [];
    var gender := if s.gender != "all" then [Param("gender", s.gender)] else [];
    var q := location + gender + [Param("minRent", NatToString(s.minBudget)), Param("maxRent", NatToString(s.maxBudget))];
    assert q[|q| - 2].key == "minRent" && q[|q| - 1].key == "maxRent";
    assert s.location != "" ==> q[0].key == "location";
    assert s.gender != "all" ==> q[|location|].key == "gender";
    KeysOrdered(s.location != "", s.gender != "all", q);
    q
  }

  /** Reading the built query: each emitted key holds the value it was set to, and the
      keys not emitted are absent. */
  lemma GetBuildParams(s: SearchInput)
    ensures Get(BuildParams(s), "location") == if s.location != "" then Some(s.location) else None
    ensures Get(BuildParams(s), "gender") == if s.gender != "all" then Some(s.gender) else None
    ensures Get(BuildParams(s), "minRent") == Some(NatToString(s.minBudget))
    ensures Get(BuildParams(s), "maxRent") == Some(NatToString(s.maxBudget))
  {
    var q := BuildParams(s);
    BoundParams(s, q, NatToString(s.minBudget), NatToString(s.maxBudget));
    LocationParam(s, q);
    GenderParam(s, q, if s.location != "" then 1 else 0);
  }

  lemma BoundParams(s: SearchInput, q: Query, lo: string, hi: string)
    requires q == BuildParams(s) && lo == NatToString(s.minBudget) && hi == NatToString(s.maxBudget)
    ensures Get(q, "minRent") == Some(lo) && Get(q, "maxRent") == Some(hi)
  {
    var n := |q|;
    assert q[n - 2] == Param("minRent", lo);
    assert q[n - 1] == Param("maxRent", hi);
    assert forall j :: 0 <= j < n - 2 ==> q[j].key == "location" || q[j].key == "gender";
    GetFirst(q, n - 2, "minRent");
    GetFirst(q, n - 1, "maxRent");
  }

  lemma LocationParam(s: SearchInput, q: Query)
    requires q == BuildParams(s)
    ensures Get(q, "location") == if s.location != "" then Some(s.location) else None
  {
    if s.location != "" {
      assert q[0] == Param("location", s.location);
      GetFirst(q, 0, "location");
    } else {
      GetMissing(q, "location");
    }
  }

  lemma GenderParam(s: SearchInput, q: Query, g: nat)
    requires q == BuildParams(s) && g == if s.location != "" then 1 else 0
    ensures Get(q, "gender") == if s.gender != "all" then Some(s.gender) else None
  {
    if s.gender != "all" {
      assert q[g] == Param("gender", s.gender);
      assert forall j :: 0 <= j < g ==> q[j].key == "location";
      GetFirst(q, g, "gender");
    } else {
      GetMissing(q, "gender");
    }
  }

  /** The keys of a query made of an optional location, an optional gender and the two
      rent bounds follow `ParamOrder`. */
  lemma KeysOrdered(hasLocation: bool, hasGender: bool, q: Query)
    requires |q| == (if hasLocation then 1 else 0) + (if hasGender then 1 else 0) + 2
    requires hasLocation ==> q[0].key == "location"
    requires hasGender ==> q[if hasLocation then 1 else 0].key == "gender"
    requires q[|q| - 2].key == "minRent" && q[|q| - 1].key == "maxRent"
    ensures IsSubsequence(Keys(q), ParamOrder)
    ensures Distinct(Keys(q))
  {
    var k := Keys(q);
    var tail := ["minRent", "maxRent"];
    assert IsSubsequence(tail, tail) by {
      assert IsSubsequence<string>([], []);
      assert IsSubsequence(["maxRent"], ["maxRent"]) by { assert ["maxRent"][1..] == []; }
      assert tail[1..] == ["maxRent"];
    }
    assert ParamOrder[1..] == ["gender"] + tail;
    assert (["gender"] + tail)[1..] == tail;
    if hasLocation && hasGender {
      assert k == ["location", "gender"] + tail;
      assert k[1..] == ["gender"] + tail;
      assert IsSubsequence(["gender"] + tail, ["gender"] + tail) by { assert (["gender"] + tail)[1..] == tail; }
    } else if hasLocation {
      assert k == ["location"] + tail;
      assert k[1..] == tail;
      assert IsSubsequence(tail, ["gender"] + tail);
    } else if hasGender {
      assert k == ["gender"] + tail;
      assert IsSubsequence(["gender"] + tail, ["gender"] + tail) by { assert (["gender"] + tail)[1..] == tail; }
    } else {
      assert k == tail;
      assert IsSubsequence(tail, ["gender"] + tail);
    }
  }

  /** What the search button does: hand the raw input to the caller's callback when there
      is one, and otherwise go to the search page with the parameters. */
  datatype SearchAction = Callback(input: SearchInput) | Navigate(route: string, query: Query)

  function HandleSearch(s: SearchInput, hasCallback: bool): (a: SearchAction)
    ensures a.Callback? <==> hasCallback
    ensures a.Callback? ==> a.input == s
    ensures a.Navigate? ==> a.route == SearchRoute && a.query == BuildParams(s)
  {
    if hasCallback then Callback(s) else Navigate(SearchRoute, BuildParams(s))
  }

  /** `parseInt(get(key) || fallback)` for a rent bound. A value with no leading digit is
      NaN in the page and is stored as 0 here. The catalog filter treats NaN like 0, since
      both are falsy; the compact bar's next query and the rent label do not, as they
      render NaN as "NaN". */
  function ReadRent(q: Query, key: string, fallback: nat): (r: nat)
    ensures Get(q, key).None? || Get(q, key) == Some("") ==> r == fallback
    ensures Get(q, key).Some? && Get(q, key).value != "" && AllDigits(Get(q, key).value) ==>
              r == ParseNat(Get(q, key).value)
    ensures Get(q, key).Some? && Get(q, key).value != "" && !IsDigit(Get(q, key).value[0]) ==> r == 0
  {
    var raw := match Get(q, key) case Some(v) => if v != "" then v else NatToString(fallback)
                                 case None => NatToString(fallback);
    ParseNatOfNatToString(fallback);
    match ParseIntPrefix(raw)
    case None => 0
    case Some(n) => n
  }

  /** The filter state the search page starts from: gender from the query unless absent
      or empty, rent bounds from the query with defaults 0 and 50000, food "all" and no
      amenities whatever the query says. */
  function SeedFilters(q: Query): (f: FilterState)
    ensures f.food == "all" && f.amenities == []
    ensures f.gender != ""
    ensures (match Get(q, "gender") case Some(g) => g != "" case None => false) ==> f.gender == Get(q, "gender").value
    ensures (match Get(q, "gender") case Some(g) => g == "" case None => true) ==> f.gender == "all"
    ensures !HasKey(q, "minRent") ==> f.minRent == 0
    ensures !HasKey(q, "maxRent") ==> f.maxRent == 50000
    ensures f.minRent >= 0 && f.maxRent >= 0
  {
    var gender := match Get(q, "gender") case Some(g) => if g != "" then g else "all" case None => "all";
    FilterState(gender, "all", ReadRent(q, "minRent", 0), ReadRent(q, "maxRent", 50000), [])
  }

  /** The location the page reports, or "" when the query has none. */
  function PageLocation(q: Query): (l: string)
    ensures HasKey(q, "location") ==> l == Get(q, "location").value
    ensures !HasKey(q, "location") ==> l == ""
  {
    Get(q, "location").GetOr("")
  }

  /** Searching and then reading the query back gives the same search: the location, the
      gender (with "" read as "all") and both budget ends. */
  lemma SearchRoundTrip(s: SearchInput)
    ensures PageLocation(BuildParams(s)) == s.location
    ensures SeedFilters(BuildParams(s)).gender == if s.gender == "" then "all" else s.gender
    ensures SeedFilters(BuildParams(s)).minRent == s.minBudget
    ensures SeedFilters(BuildParams(s)).maxRent == s.maxBudget
  {
    GetBuildParams(s);
    ParseNatOfNatToString(s.minBudget);
    ParseNatOfNatToString(s.maxBudget);
  }

  /** The default search emits only the budget, 0 to 25000. */
  lemma DefaultSearchParams()
    ensures BuildParams(DefaultSearch) == [Param("minRent", "0"), Param("maxRent", "25000")]
  {
    assert NatToString(2) == "2";
    assert NatToString(25) == "25";
    assert NatToString(250) == "250";
    assert NatToString(2500) == "2500";
    assert NatToString(25000) == "25000";
  }

  /** The criteria the page passes to the catalog filter: exactly the five filter fields. */
  function ToCriteria(f: FilterState): (c: Criteria)
    ensures c.gender == Some(f.gender) && c.food == Some(f.food)
    ensures c.minRent == Some(f.minRent) && c.maxRent == Some(f.maxRent)
    ensures c.amenities == Some(f.amenities)
  {
    Criteria(Some(f.gender), Some(f.food), Some(f.minRent), Some(f.maxRent), Some(f.amenities))
  }

  /** The listings the page shows for a query. */
  function Results(q: Query): (r: seq<Listing>)
    ensures IsSubsequence(r, MockPGs()) && Distinct(r)
    ensures forall p :: p in r <==> p in MockPGs() && Keep(p, ToCriteria(SeedFilters(q)))
  {
    FilterPGs(ToCriteria(SeedFilters(q)))
  }

  /** A gender in the query, other than "all", admits only listings of that gender. */
  lemma QueryGenderRespected(q: Query, p: Listing)
    requires p in Results(q)
    requires Get(q, "gender").Some? && Get(q, "gender").value != "" && Get(q, "gender").value != "all"
    ensures GenderName(p.gender) == Get(q, "gender").value
  {
    FilterGender(MockPGs(), ToCriteria(SeedFilters(q)), p);
  }

  /** The budget of a search bounds the rents the page then lists, inclusively; a zero
      bound imposes nothing, as in the filter. */
  lemma QueryBudgetRespected(s: SearchInput, p: Listing)
    requires p in Results(BuildParams(s))
    ensures s.minBudget == 0 || s.minBudget <= p.rent
    ensures s.maxBudget == 0 || p.rent <= s.maxBudget
  {
    SearchRoundTrip(s);
    var f := SeedFilters(BuildParams(s));
    assert Keep(p, ToCriteria(f));
  }

  /** With no parameters the page lists the whole catalog, since every rent is within
      the default 50000. */
  lemma NoParamsListsEverything()
    ensures Results([]) == MockPGs()
  {
    var c := ToCriteria(SeedFilters([]));
    assert c == Criteria(Some("all"), Some("all"), Some(0), Some(50000), Some([]));
    CatalogRentRange();
    forall p | p in MockPGs() ensures Keep(p, c) {
    }
    FilterListingsKeepsAll(MockPGs(), c);
  }

  /** The compact bar on the page is seeded with the page's location, gender and rent
      bounds. */
  function CompactSeed(q: Query): (s: SearchInput)
    ensures s.location == PageLocation(q)
    ensures s.gender == SeedFilters(q).gender
    ensures s.minBudget == SeedFilters(q).minRent && s.maxBudget == SeedFilters(q).maxRent
  {
    var f := SeedFilters(q);
    SearchInput(PageLocation(q), f.gender, f.minRent, f.maxRent)
  }

  /** Pressing search again on the page without editing anything reproduces the page's
      location and filters. */
  lemma ResearchIsStable(q: Query)
    ensures PageLocation(BuildParams(CompactSeed(q))) == PageLocation(q)
    ensures SeedFilters(BuildParams(CompactSeed(q))) == SeedFilters(q)
  {
    SearchRoundTrip(CompactSeed(q));
  }

  /** The search page while it stays open: the query in the address bar and the filter
      state. The filters are seeded from the query only when the page is entered; the
      location is read from the query on every render. */
  datatype SearchPage = SearchPage(query: Query, filters: FilterState)

  /** Entering the search page with a query. */
  function EnterSearchPage(q: Query): (page: SearchPage)
    ensures page.query == q && page.filters == SeedFilters(q)
    ensures PageResults(page) == Results(q)
  {
    SearchPage(q, SeedFilters(q))
  }

  /** The listings an open page shows: the catalog filtered by its current filter state. */
  function PageResults(page: SearchPage): (r: seq<Listing>)
    ensures IsSubsequence(r, MockPGs()) && Distinct(r)
    ensures forall p :: p in r <==> p in MockPGs() && Keep(p, ToCriteria(page.filters))
  {
    FilterPGs(ToCriteria(page.filters))
  }

  /** The filter panel on the page replaces the filter state; the query stays. */
  function ChangeFilters(page: SearchPage, f: FilterState): (r: SearchPage)
    ensures r.query == page.query && r.filters == f
  {
    page.(filters := f)
  }

  /** Searching from the compact bar of an open page: the address bar takes the new
      query, but the route is the same, so the page stays mounted and keeps its filters. */
  function SearchFromPage(page: SearchPage, s: SearchInput): (r: SearchPage)
    ensures r.query == BuildParams(s)
    ensures r.filters == page.filters
  {
    page.(query := BuildParams(s))
  }

  /** A search from the open page shows the new location but lists exactly what it listed
      before, whatever gender and budget were searched for. */
  lemma SearchFromPageKeepsResults(page: SearchPage, s: SearchInput)
    ensures PageLocation(SearchFromPage(page, s).query) == s.location
    ensures PageResults(SearchFromPage(page, s)) == PageResults(page)
  {
    SearchRoundTrip(s);
  }

  /** Entering the page for "boys" and then searching for "girls" from its bar: the address
      bar asks for girls, while the filters, and so the results, stay on boys. */
  lemma StaleGenderAfterSearchFromPage()
    ensures var page := SearchFromPage(EnterSearchPage([Param("gender", "boys")]), SearchInput("", "girls", 0, 50000));
            SeedFilters(page.query).gender == "girls" && page.filters.gender == "boys"
  {
    var q := [Param("gender", "boys")];
    GetFirst(q, 0, "gender");
    SearchRoundTrip(SearchInput("", "girls", 0, 50000));
  }

  /** The results header: the count, then "PG" or "PGs", then "found". */
  function ResultLabel(n: nat): (heading: string)
    ensures |heading| >= 7 && heading[|heading| - 6..] == " found"
    ensures heading[|heading| - 7] == 's' <==> n != 1
    ensures |NatToString(n)| < |heading| && heading[..|NatToString(n)|] == NatToString(n)
    ensures n == 1 ==> heading[|NatToString(n)|..] == " PG found"
    ensures n != 1 ==> heading[|NatToString(n)|..] == " PGs found"
  {
    var tail := if n == 1 then " PG found" else " PGs found";
    LabelEnding(NatToString(n), tail);
    NatToString(n) + tail
  }

  /** The header starts with the count, which reads back as the number of results. */
  lemma ResultLabelCount(n: nat)
    ensures ParseIntPrefix(ResultLabel(n)) == Some(n)
  {
    ParseIntPrefixOfRendered(n, if n == 1 then " PG found" else " PGs found");
  }

  /** The last characters of a count followed by either ending. */
  lemma LabelEnding(count: string, tail: string)
    requires tail == " PG found" || tail == " PGs found"
    ensures |count + tail| >= 7 && (count + tail)[|count + tail| - 6..] == " found"
    ensures (count + tail)[|count + tail| - 7] == 's' <==> tail == " PGs found"
  {
    var h := count + tail;
    assert h[|h| - 7] == tail[|tail| - 7];
    assert h[|h| - 6..] == tail[|tail| - 6..];
  }
}

=== FILE: seqs.dfy ===
/** Sequence helpers shared by the listing catalog, the filter panel and the views:
    order-preserving filtering (`Array.prototype.filter`), first-match search
    (`Array.prototype.find`), prefixes (`slice(0, k)`) and the relations used to state
    what they promise. */
module Seqs {
  import opened Wrappers

  /** `a` can be obtained from `b` by deleting elements, without reordering. */
  predicate IsSubsequence<T(==)>(a: seq<T>, b: seq<T>)
    decreases |b|
  {
    |a| == 0 || (|b| > 0 && ((a[0] == b[0] && IsSubsequence(a[1..], b[1..])) || IsSubsequence(a, b[1..])))
  }

  /** No element occurs twice. */
  predicate Distinct<T(==)>(s: seq<T>) {
    forall i, j :: 0 <= i < j < |s| ==> s[i] != s[j]
  }

  /** The elements of `s` that satisfy `keep`, in their original order. */
  function Filter<T(==,!new)>(s: seq<T>, keep: T -> bool): (r: seq<T>)
    ensures forall x :: x in r <==> x in s && keep(x)
    ensures forall x :: multiset(r)[x] == if keep(x) then multiset(s)[x] else 0
    ensures IsSubsequence(r, s)
    ensures |r| <= |s|
    decreases |s|
  {
    if |s| == 0 then []
    else
      var rest := Filter(s[1..], keep);
      assert s == [s[0]] + s[1..];
      if keep(s[0]) then [s[0]] + rest else rest
  }

  /** Filtering with a predicate that holds everywhere on `s` gives `s` back. */
  lemma {:induction false} FilterKeepsAll<T(!new)>(s: seq<T>, keep: T -> bool)
    requires forall x :: x in s ==> keep(x)
    ensures Filter(s, keep) == s
    decreases |s|
  {
    if |s| > 0 {
      var rest := s[1..];
      forall x | x in rest ensures keep(x) {
        var j :| 0 <= j < |rest| && rest[j] == x;
        assert s[j + 1] == x;
      }
      FilterKeepsAll(rest, keep);
      assert s == [s[0]] + rest;
    }
  }

  /** Filtering distributes over concatenation. */
  lemma {:induction false} FilterAppend<T(!new)>(a: seq<T>, b: seq<T>, keep: T -> bool)
    ensures Filter(a + b, keep) == Filter(a, keep) + Filter(b, keep)
    decreases |a|
  {
    if |a| > 0 {
      assert (a + b)[1..] == a[1..] + b;
      FilterAppend(a[1..], b, keep);
    } else {
      assert a + b == b;
    }
  }

  /** The tail of a duplicate-free sequence is duplicate-free and does not contain the head. */
  lemma DistinctTail<T>(s: seq<T>)
    requires |s| > 0 && Distinct(s)
    ensures Distinct(s[1..]) && s[0] !in s[1..]
  {
    forall i, j | 0 <= i < j < |s[1..]| ensures s[1..][i] != s[1..][j] {
      assert s[1..][i] == s[i + 1] && s[1..][j] == s[j + 1];
    }
    forall k | 0 <= k < |s[1..]| ensures s[1..][k] != s[0] {
      assert s[1..][k] == s[k + 1];
    }
  }

  /** Prepending an element that does not occur keeps a sequence duplicate-free. */
  lemma DistinctCons<T>(x: T, s: seq<T>)
    requires Distinct(s) && x !in s
    ensures Distinct([x] + s)
  {
    var r := [x] + s;
    forall i, j | 0 <= i < j < |r| ensures r[i] != r[j] {
      assert r[j] == s[j - 1];
      if i > 0 {
        assert r[i] == s[i - 1];
      }
    }
  }

  /** Filtering a duplicate-free sequence gives a duplicate-free sequence. */
  lemma {:induction false} FilterPreservesDistinct<T(!new)>(s: seq<T>, keep: T -> bool)
    requires Distinct(s)
    ensures Distinct(Filter(s, keep))
    decreases |s|
  {
    if |s| > 0 {
      DistinctTail(s);
      FilterPreservesDistinct(s[1..], keep);
      var rest := Filter(s[1..], keep);
      if keep(s[0]) {
        assert s[0] !in rest;
        DistinctCons(s[0], rest);
      }
    }
  }

  /** The index of the first element satisfying `p`, if there is one. */
  function FirstIndex<T>(s: seq<T>, p: T -> bool): (r: Option<nat>)
    ensures r.Some? ==> r.value < |s| && p(s[r.value]) && forall j :: 0 <= j < r.value ==> !p(s[j])
    ensures r.None? <==> forall j :: 0 <= j < |s| ==> !p(s[j])
    decreases |s|
  {
    if |s| == 0 then None
    else if p(s[0]) then Some(0)
    else
      var rest := FirstIndex(s[1..], p);
      assert forall j :: 0 < j < |s| ==> s[1..][j - 1] == s[j];
      match rest
      case None => None
      case Some(k) => Some(k + 1)
  }

  /** The first `k` elements, or all of them when there are fewer (`slice(0, k)`). */
  function Take<T>(s: seq<T>, k: nat): (r: seq<T>)
    ensures |r| == if |s| < k then |s| else k
    ensures forall i :: 0 <= i < |r| ==> r[i] == s[i]
  {
    if |s| <= k then s else s[..k]
  }

  /** `f` applied to every element, in order (`Array.prototype.map`). */
  function Map<T, U>(s: seq<T>, f: T -> U): (r: seq<U>)
    ensures |r| == |s|
    ensures forall i :: 0 <= i < |s| ==> r[i] == f(s[i])
  {
    seq(|s|, i requires 0 <= i < |s| => f(s[i]))
  }
}

=== FILE: text.dfy ===
/** String helpers with the behaviour of the JavaScript built-ins the front-end uses:
    `replace(/\D/g, "")`, `String(n)` and `parseInt` on decimal digit strings,
    `replace(str, str)` (first occurrence only), `split(" ")`, and `toUpperCase` on ASCII. */
module Text {
  import opened Wrappers
  import opened Seqs

  predicate IsDigit(c: char) {
    '0' <= c <= '9'
  }

  predicate AllDigits(s: string) {
    forall i :: 0 <= i < |s| ==> IsDigit(s[i])
  }

  /** `s.replace(/\D/g, "")`: the decimal digits of `s`, in order. */
  function DigitsOnly(s: string): (r: string)
    ensures AllDigits(r)
    ensures IsSubsequence(r, s)
    ensures forall c :: IsDigit(c) ==> multiset(r)[c] == multiset(s)[c]
  {
    var r := Filter(s, IsDigit);
    assert forall i :: 0 <= i < |r| ==> r[i] in r;
    r
  }

  /** Removing non-digits from a digit string changes nothing. */
  lemma DigitsOnlyOfDigits(s: string)
    requires AllDigits(s)
    ensures DigitsOnly(s) == s
  {
    FilterKeepsAll(s, IsDigit);
  }

  /** Digit extraction distributes over concatenation. */
  lemma DigitsOnlyAppend(a: string, b: string)
    ensures DigitsOnly(a + b) == DigitsOnly(a) + DigitsOnly(b)
  {
    FilterAppend(a, b, IsDigit);
  }

  function DigitChar(d: nat): (c: char)
    requires d < 10
    ensures IsDigit(c) && DigitValue(c) == d
  {
    ('0' as int + d) as char
  }

  function DigitValue(c: char): (d: nat)
    requires IsDigit(c)
    ensures d < 10
  {
    c as int - '0' as int
  }

  /** The decimal rendering of a natural number (`n.toString()`), without leading zeros. */
  function NatToString(n: nat): (s: string)
    ensures 0 < |s| && AllDigits(s)
    ensures n < 10 <==> |s| == 1
    decreases n
  {
    if n < 10 then [DigitChar(n)] else NatToString(n / 10) + [DigitChar(n % 10)]
  }

  /** `parseInt(s, 10)` on a string of decimal digits; the empty string reads as 0 here,
      callers substitute a default before parsing. */
  function ParseNat(s: string): (n: nat)
    requires AllDigits(s)
    decreases |s|
  {
    if |s| == 0 then 0 else ParseNat(s[..|s| - 1]) * 10 + DigitValue(s[|s| - 1])
  }

  /** Reading back a rendered number gives the number. */
  lemma {:induction false} ParseNatOfNatToString(n: nat)
    ensures ParseNat(NatToString(n)) == n
    decreases n
  {
    var s := NatToString(n);
    if n < 10 {
      assert s[..|s| - 1] == [];
    } else {
      ParseNatOfNatToString(n / 10);
      assert s[..|s| - 1] == NatToString(n / 10);
    }
  }

  /** The longest prefix of `s` made of decimal digits. */
  function LeadingDigits(s: string): (r: string)
    ensures AllDigits(r) && |r| <= |s| && r == s[..|r|]
    ensures |r| < |s| ==> !IsDigit(s[|r|])
    decreases |s|
  {
    if |s| == 0 || !IsDigit(s[0]) then ""
    else
      var rest := LeadingDigits(s[1..]);
      assert s[1..][..|rest|] == s[1..|rest| + 1];
      [s[0]] + rest
  }

  /** The leading digits are the only digit prefix followed by a non-digit or the end. */
  lemma LeadingDigitsUnique(s: string, r: string)
    requires AllDigits(r) && |r| <= |s| && r == s[..|r|]
    requires |r| < |s| ==> !IsDigit(s[|r|])
    ensures LeadingDigits(s) == r
  {
    var l := LeadingDigits(s);
    assert forall k :: 0 <= k < |r| ==> s[k] == r[k];
    assert forall k :: 0 <= k < |l| ==> s[k] == l[k];
    assert |l| == |r|;
  }

  /** `parseInt(s, 10)` on input without sign or leading blanks: the value of the leading
      digits, or `None` (NaN) when `s` does not start with a digit. */
  function ParseIntPrefix(s: string): (n: Option<nat>)
    ensures n.None? <==> |s| == 0 || !IsDigit(s[0])
    ensures AllDigits(s) && |s| > 0 ==> n == Some(ParseNat(s))
  {
    var d := LeadingDigits(s);
    if AllDigits(s) then LeadingDigitsUnique(s, s); if d == "" then None else Some(ParseNat(d))
    else if d == "" then None else Some(ParseNat(d))
  }

  /** Reading back a rendered number, even with text after it, gives the number. */
  lemma ParseIntPrefixOfRendered(n: nat, tail: string)
    requires |tail| == 0 || !IsDigit(tail[0])
    ensures ParseIntPrefix(NatToString(n) + tail) == Some(n)
  {
    var s := NatToString(n);
    assert (s + tail)[..|s|] == s;
    LeadingDigitsUnique(s + tail, s);
    ParseNatOfNatToString(n);
  }

  /** `s.replace(pat, rep)` with a one-character pattern: only the first occurrence is replaced. */
  function ReplaceFirst(s: string, pat: char, rep: string): (r: string)
    ensures pat !in s ==> r == s
    ensures pat in s ==> |r| == |s| - 1 + |rep|
    ensures pat in s ==> multiset(r) == multiset(s) - multiset{pat} + multiset(rep)
    ensures forall i :: 0 <= i < |s| && (forall j :: 0 <= j <= i ==> s[j] != pat) ==> i < |r| && r[i] == s[i]
    ensures pat in s ==> exists k :: 0 <= k < |s| && s[k] == pat && pat !in s[..k] && r == s[..k] + rep + s[k + 1..]
  {
    match FirstIndex(s, c => c == pat)
    case None =>
      assert forall i :: 0 <= i < |s| ==> s[i] != pat;
      s
    case Some(k) =>
      assert s == s[..k] + [s[k]] + s[k + 1..];
      assert pat !in s[..k] by {
        forall j | 0 <= j < k ensures s[..k][j] != pat {
          assert s[..k][j] == s[j];
        }
      }
      s[..k] + rep + s[k + 1..]
  }

  /** Replacing in a text made of a pattern-free head, the pattern and any tail puts the
      replacement exactly between the head and the tail. */
  lemma ReplaceFirstAt(head: string, pat: char, tail: string, rep: string)
    requires pat !in head
    ensures ReplaceFirst(head + [pat] + tail, pat, rep) == head + rep + tail
  {
    var s := head + [pat] + tail;
    var r := ReplaceFirst(s, pat, rep);
    assert s[|head|] == pat && s[..|head|] == head && s[|head| + 1..] == tail;
    var k :| 0 <= k < |s| && s[k] == pat && pat !in s[..k] && r == s[..k] + rep + s[k + 1..];
    FirstOccurrenceUnique(s, pat, k, |head|);
  }

  /** With an empty replacement the first occurrence is simply deleted. */
  lemma DeleteFirstAt(s: string, pat: char)
    ensures pat in s ==> exists k :: 0 <= k < |s| && s[k] == pat && pat !in s[..k] &&
                                     ReplaceFirst(s, pat, "") == s[..k] + s[k + 1..]
  {
    if pat in s {
      var k := FirstOccurrence(s, pat);
      DeleteAtFirstOccurrence(s, pat, k);
    }
  }

  /** Replacing at the position of the first occurrence. */
  lemma ReplaceAtFirstOccurrence(s: string, pat: char, rep: string, k: nat)
    requires k < |s| && s[k] == pat && pat !in s[..k]
    ensures ReplaceFirst(s, pat, rep) == s[..k] + rep + s[k + 1..]
  {
    assert pat in s by { assert s[k] in s; }
    var m :| 0 <= m < |s| && s[m] == pat && pat !in s[..m] && ReplaceFirst(s, pat, rep) == s[..m] + rep + s[m + 1..];
    FirstOccurrenceUnique(s, pat, m, k);
  }

  /** Deleting at the position of the first occurrence. */
  lemma DeleteAtFirstOccurrence(s: string, pat: char, k: nat)
    requires k < |s| && s[k] == pat && pat !in s[..k]
    ensures ReplaceFirst(s, pat, "") == s[..k] + s[k + 1..]
  {
    ReplaceAtFirstOccurrence(s, pat, "", k);
    assert s[..k] + "" + s[k + 1..] == s[..k] + s[k + 1..];
  }

  /** The position of the first occurrence of a character the text contains. */
  lemma FirstOccurrence(s: string, c: char) returns (k: nat)
    requires c in s
    ensures k < |s| && s[k] == c && c !in s[..k]
  {
    var f := FirstIndex(s, x => x == c);
    k := f.value;
    assert forall j :: 0 <= j < k ==> s[..k][j] == s[j];
  }

  /** Two positions that both hold the first occurrence of a character are the same. */
  lemma FirstOccurrenceUnique(s: string, c: char, k: nat, m: nat)
    requires k < |s| && s[k] == c && c !in s[..k]
    requires m < |s| && s[m] == c && c !in s[..m]
    ensures k == m
  {
    assert forall j :: 0 <= j < k ==> s[..k][j] == s[j];
    assert forall j :: 0 <= j < m ==> s[..m][j] == s[j];
  }

  /** The text when it is present and non-empty, otherwise the fallback (`value || fallback`
      on a nullable string). */
  function NonEmptyOr(value: Option<string>, fallback: string): (r: string)
    ensures value.Some? && value.value != "" ==> r == value.value
    ensures value.None? || value.value == "" ==> r == fallback
    ensures fallback != "" ==> r != ""
  {
    if value.Some? && value.value != "" then value.value else fallback
  }

  /** Joins words with a separator between consecutive ones (`words.join(sep)`). */
  function JoinWith(words: seq<string>, sep: char): string
    decreases |words|
  {
    if |words| == 0 then ""
    else if |words| == 1 then words[0]
    else words[0] + [sep] + JoinWith(words[1..], sep)
  }

  /** `s.split(sep)` for a one-character separator: the maximal separator-free pieces,
      empty ones included, which the separator joins back into `s`. */
  function Split(s: string, sep: char): (words: seq<string>)
    ensures |words| >= 1
    ensures forall w :: w in words ==> sep !in w
    ensures JoinWith(words, sep) == s
    decreases |s|
  {
    if |s| == 0 then [""]
    else
      var rest := Split(s[1..], sep);
      if s[0] == sep then
        assert JoinWith([""] + rest, sep) == [sep] + JoinWith(rest, sep);
        assert s == [s[0]] + s[1..];
        [""] + rest
      else
        var first := [s[0]] + rest[0];
        var words := [first] + rest[1..];
        assert sep !in first by {
          assert rest[0] in rest;
        }
        assert forall w :: w in rest[1..] ==> w in rest;
        assert words[1..] == rest[1..];
        assert s == [s[0]] + s[1..];
        words
  }

  /** A string without the separator splits into itself. */
  lemma {:induction false} SplitWord(w: string, sep: char)
    requires sep !in w
    ensures Split(w, sep) == [w]
    decreases |w|
  {
    if |w| > 0 {
      assert sep !in w[1..] by {
        assert forall k :: 0 <= k < |w[1..]| ==> w[1..][k] == w[k + 1];
      }
      SplitWord(w[1..], sep);
      assert w == [w[0]] + w[1..];
    }
  }

  /** A word, the separator, then more: the word is split off first. */
  lemma {:induction false} SplitAfterWord(w: string, sep: char, t: string)
    requires sep !in w
    ensures Split(w + [sep] + t, sep) == [w] + Split(t, sep)
    decreases |w|
  {
    var s := w + [sep] + t;
    if |w| == 0 {
      assert s[0] == sep && s[1..] == t;
    } else {
      assert sep !in w[1..] by {
        assert forall k :: 0 <= k < |w[1..]| ==> w[1..][k] == w[k + 1];
      }
      SplitAfterWord(w[1..], sep, t);
      assert s[0] == w[0] && s[1..] == w[1..] + [sep] + t;
      assert [w[0]] + w[1..] == w;
    }
  }

  /** Splitting a join gives back the words, when no word holds the separator. */
  lemma {:induction false} SplitJoinWith(words: seq<string>, sep: char)
    requires |words| >= 1
    requires forall i :: 0 <= i < |words| ==> sep !in words[i]
    ensures Split(JoinWith(words, sep), sep) == words
    decreases |words|
  {
    if |words| == 1 {
      SplitWord(words[0], sep);
    } else {
      SplitJoinWith(words[1..], sep);
      SplitAfterWord(words[0], sep, JoinWith(words[1..], sep));
      assert words == [words[0]] + words[1..];
    }
  }

  function UpperChar(c: char): (u: char)
    ensures !('a' <= u <= 'z')
    ensures 'a' <= c <= 'z' ==> u as int == c as int - ('a' as int - 'A' as int)
    ensures !('a' <= c <= 'z') ==> u == c
  {
    if 'a' <= c <= 'z' then (c as int - 32) as char else c
  }

  /** `s.toUpperCase()` restricted to ASCII letters. */
  function Upper(s: string): (u: string)
    ensures |u| == |s|
    ensures forall i :: 0 <= i < |s| ==> u[i] == UpperChar(s[i])
  {
    Map(s, UpperChar)
  }
}

=== FILE: wishlist.dfy ===
/** The wishlist cache: the set of saved listing ids for the signed-in user, changed only
    after the hosted store confirms a change. */
module Wishlist {
  import opened Wrappers
  import opened Listings
  import opened Effects

  datatype WishlistState = WishlistState(saved: set<string>, loading: bool)

  const InitialWishlist := WishlistState({}, false)

  /** `isInWishlist`. */
  function IsInWishlist(s: WishlistState, pgId: string): (saved: bool)
    ensures saved <==> pgId in s.saved
  {
    pgId in s.saved
  }

  /** `fetchSavedPGs`: with a user, the saved set becomes exactly the returned ids; no
      user, or no data, leaves it alone. */
  function FetchSavedPGs(s: WishlistState, user: Option<string>, data: Option<seq<string>>): (r: WishlistState)
    ensures r.loading == s.loading
    ensures user.None? || data.None? ==> r == s
    ensures user.Some? && data.Some? ==> forall id :: IsInWishlist(r, id) <==> id in data.value
  {
    if user.None? then s
    else match data
      case None => s
      case Some(ids) => s.(saved := set id | id in ids)
  }

  /** The effect run whenever the user changes: fetch for a user, clear without one. */
  function OnUserChange(s: WishlistState, user: Option<string>, data: Option<seq<string>>): (r: WishlistState)
    ensures user.None? ==> forall id :: !IsInWishlist(r, id)
    ensures user.Some? && data.None? ==> r == s
    ensures user.Some? && data.Some? ==> forall id :: IsInWishlist(r, id) <==> id in data.value
  {
    if user.Some? then FetchSavedPGs(s, user, data) else s.(saved := {})
  }

  /** The snapshot row inserted into `saved_pgs`. */
  datatype SavedRow = SavedRow(userId: string, pgId: string, pgName: string, pgLocation: string, pgPrice: int, pgImage: Option<string>)

  datatype StoreCall =
    | DeleteSaved(userId: string, pgId: string)
    | InsertSaved(row: SavedRow)

  /** `images[0] || null`: the cover image when there is a non-empty one. */
  function PrimaryImage(images: seq<string>): (r: Option<string>)
    ensures r.Some? <==> |images| > 0 && images[0] != ""
    ensures r.Some? ==> r.value == images[0]
  {
    if |images| > 0 && images[0] != "" then Some(images[0]) else None
  }

  /** First half of `toggleWishlist`: the sign-in guard, then the store request. */
  datatype ToggleStart =
    | LoginRequired(toast: Toast, navigateTo: string)
    | Pending(call: StoreCall, wasSaved: bool, state: WishlistState)

  function BeginToggle(s: WishlistState, user: Option<string>, pg: Listing): (r: ToggleStart)
    ensures user.None? <==> r.LoginRequired?
    ensures r.LoginRequired? ==> r.navigateTo == AuthRoute && r.toast.title == "Login required"
    ensures r.Pending? ==>
              && r.state == s.(loading := true)
              && r.wasSaved == IsInWishlist(s, pg.id)
              && (r.wasSaved ==> r.call == DeleteSaved(user.value, pg.id))
              && (!r.wasSaved ==> r.call == InsertSaved(SavedRow(user.value, pg.id, pg.name, pg.address, pg.rent, PrimaryImage(pg.images))))
  {
    match user
    case None =>
      LoginRequired(Toast("Login required", "Please login to save PGs to your wishlist.", true), AuthRoute)
    case Some(uid) =>
      var wasSaved := pg.id in s.saved;
      var call := if wasSaved then DeleteSaved(uid, pg.id)
                  else InsertSaved(SavedRow(uid, pg.id, pg.name, pg.address, pg.rent, PrimaryImage(pg.images)));
      Pending(call, wasSaved, s.(loading := true))
  }

  /** Second half of `toggleWishlist`: applied to the state current when the store answers.
      Only a confirmed change touches the set, and only at `pg.id`. */
  function FinishToggle(s: WishlistState, pg: Listing, wasSaved: bool, reply: StoreReply): (r: (WishlistState, Toast))
    ensures !r.0.loading
    ensures forall id :: id != pg.id ==> (IsInWishlist(r.0, id) <==> IsInWishlist(s, id))
    ensures reply.StoreOk? ==> (IsInWishlist(r.0, pg.id) <==> !wasSaved)
    ensures reply.StoreError? ==> r.0.saved == s.saved && r.1 == Toast("Error", "Failed to update wishlist. Please try again.", true)
  {
    match reply
    case StoreError(_) =>
      (s.(loading := false), Toast("Error", "Failed to update wishlist. Please try again.", true))
    case StoreOk =>
      if wasSaved then
        (s.(saved := s.saved - {pg.id}, loading := false),
         Toast("Removed from wishlist", pg.name + " has been removed from your wishlist.", false))
      else
        (s.(saved := s.saved + {pg.id}, loading := false),
         Toast("Added to wishlist", pg.name + " has been saved to your wishlist.", false))
  }

  datatype ToggleOutcome = ToggleOutcome(state: WishlistState, calls: seq<StoreCall>, toast: Toast, navigateTo: Option<string>)

  /** One whole `toggleWishlist` call when nothing else happens while the store answers. */
  function ToggleWishlist(s: WishlistState, user: Option<string>, pg: Listing, reply: StoreReply): (r: ToggleOutcome)
    ensures user.None? ==> r.state == s && r.calls == [] && r.navigateTo == Some(AuthRoute)
    ensures user.Some? ==> |r.calls| == 1 && !r.state.loading && r.navigateTo.None?
    ensures user.Some? && IsInWishlist(s, pg.id) ==> r.calls == [DeleteSaved(user.value, pg.id)]
    ensures user.Some? && !IsInWishlist(s, pg.id) ==> r.calls[0].InsertSaved? && r.calls[0].row.pgId == pg.id
    ensures forall id :: id != pg.id ==> (IsInWishlist(r.state, id) <==> IsInWishlist(s, id))
    ensures user.Some? && reply.StoreOk? ==> (IsInWishlist(r.state, pg.id) <==> !IsInWishlist(s, pg.id))
    ensures reply.StoreError? ==> r.state.saved == s.saved
  {
    match BeginToggle(s, user, pg)
    case LoginRequired(toast, nav) => ToggleOutcome(s, [], toast, Some(nav))
    case Pending(call, wasSaved, busy) =>
      var (after, toast) := FinishToggle(busy, pg, wasSaved, reply);
      ToggleOutcome(after, [call], toast, None)
  }

  /** Two confirmed toggles of the same listing restore the saved set. */
  lemma ToggleTwiceRestores(s: WishlistState, user: Option<string>, pg: Listing)
    requires user.Some?
    ensures ToggleWishlist(ToggleWishlist(s, user, pg, StoreOk).state, user, pg, StoreOk).state.saved == s.saved
  {
    var once := ToggleWishlist(s, user, pg, StoreOk).state;
    var twice := ToggleWishlist(once, user, pg, StoreOk).state;
    assert forall id :: id in twice.saved <==> id in s.saved;
  }
}

=== FILE: wrappers.dfy ===
/** Optional values: the model's stand-in for TypeScript's `T | undefined` and `T | null`. */
module Wrappers {

  datatype Option<+T> = None | Some(value: T) {

    /** The value, or `default` when there is none (the `x ?? default` idiom). */
    function GetOr(default: T): T {
      match this
      case Some(v) => v
      case None => default
    }
  }
}
